=== FILE: README.md ===
# GreenScreen: a verified model of the fake terminal's core

GreenScreen is a browser page that imitates a terminal. The model covers two parts of it:

- **The renderer** (`Foundation.js`). It turns a string into an output line, either as plain text or as a "typewriter" wrapper. In the wrapper, each character becomes one `<span class="char">` with a staggered animation index, and each newline becomes a `<br>`. The echo animation (`animateText`) can add a blinking cursor, which it removes again when its promise resolves after `max(0, (n-1)*step + 420)` ms.
- **The session loop** (`src/scripts/Terminus.js`):
  - the Enter key handler and the one-slot pending read (`readLine`);
  - `executeCommand`, which checks for blank input, echoes the command, splits it with `trim().split(/\s+/)`, looks the name up in the command table, and writes an error line when it is missing;
  - the `startREPL` loop;
  - the `ls`, `clear`, `scramblybugs`, `test` and `hide` handlers.

The DOM is replaced by values:

- the output log is a `seq<Line>`;
- a typewriter wrapper is a `seq<Node>` of `Br`, `Char` and `Cursor`;
- scroll position, prompt visibility and focus are fields of `Screen`.

The asynchronous program becomes a state machine, `Terminus.Step`. The events are:

- `Type` (the input field's text changes);
- `Enter`;
- `EchoDone` (the echo's promise resolves) and `EchoFailed` (the echo falls back to plain text, see "Left out");
- `Tick(n)` (a `scramblybugs` timer fires having drawn `n`).

`Terminus.Step` looks command names up in the five registered keys only. That is the intended lookup, the corrected half of the finding below. With it, the page always waits at exactly one point between two outside events:

- either a read is pending (`Session.pending`: the REPL's read or the `test` loop's read);
- or the echo animation of a command is in flight (`Session.echo`).

`Registry.StepAsWritten` is the same machine with the lookup as the code performs it. There a throwing inherited name (such as `valueOf`) leaves nothing waiting at all, and `Registry.ReachableAsWritten` states what can be reached then.

`Terminus.Run` folds a finite sequence of events. Delays are whole milliseconds: 0.02 s is `20`, 0.01 s is `10`, and 1 s is `1000`.

Modules:

- `Common`: `Option` and `Max`.
- `JsText`:
  - `String.prototype.trim` and `split(/\s+/)` over the ECMAScript whitespace set (WhiteSpace plus LineTerminator, which is also what `\s` matches);
  - `String(n)` for the ticker's numbers.
- `Foundation`: the renderer.
- `Terminus`: the command table, the parser, and the session state machine.
- `TerminusProperties`: the session invariant and the behaviour of each kind of input.
- `Registry`: the command lookup as the code actually performs it (see Findings).

Three behaviours of the code differ from what its names and comments suggest, and the model follows the code:

- **`hide`.** It does hide the prompt, but `startREPL` shows it again as soon as the command returns, so `hide` has no lasting effect (`TerminusProperties.HideIsTransient`).
- **`ls`.** It passes `baseDelay: 1` to a non-animated `writeLine`, which never reads it, so the listing appears at once, with no artificial delay.
- **The command lookup.** It does not always succeed cleanly: names inherited from `Object.prototype` are found too (see Findings).

## Model

| member | source | states |
|---|---|---|
| `JsText.Trim` | src/scripts/Terminus.js:69 | `trim()` is a slice of the input with only whitespace cut off before and after it; the result is empty exactly when the input is all whitespace, and otherwise starts and ends with a non-whitespace character |
| `JsText.TrimPadded` | src/scripts/Terminus.js:89 | any whitespace around a text with non-whitespace ends is exactly what `trim()` removes |
| `JsText.TrimKeepsText` | src/scripts/Terminus.js:89 | trimming removes only whitespace: the input's non-whitespace characters all survive, in order |
| `JsText.Split` | src/scripts/Terminus.js:89 | `split(/\s+/)` yields at least one piece; the pieces concatenate to the input with all its whitespace removed; and for a non-empty input with non-whitespace ends every piece is a non-empty, whitespace-free word (the round trip is `JsText.SplitJoin`) |
| `JsText.SplitWordGap` | src/scripts/Terminus.js:89 | a word, a run of whitespace of any length and kind, then a text starting with a non-space split into that word followed by the pieces of the text |
| `JsText.SplitJoin` | src/scripts/Terminus.js:89 | `split(/\s+/)` undoes joining: words separated by any non-empty whitespace runs split back into exactly those words |
| `JsText.Decimal` | src/scripts/Terminus.js:133-134 | `String(n)` for a non-negative integer is non-empty, all decimal digits, and starts with `0` only for zero, and then is exactly `0` |
| `JsText.DecimalRoundTrip` | src/scripts/Terminus.js:133-134 | the digits of `String(n)` read back as `n` |
| `Foundation.WriteChar` | Foundation.js:21-36 | a newline appends exactly one break and returns nothing; any other character appends exactly one char unit with that character, the given index, the class and the step (`baseDelay ?? 0.02`, kept only when it is a number), and returns it |
| `Foundation.Typeset` | Foundation.js:68-77 | the per-character loop emits exactly one node per input character and never a cursor |
| `Foundation.TypesetReadBack` | Foundation.js:68-77 | reading the emitted nodes back, with breaks as newlines, reconstructs the input exactly |
| `Foundation.TypesetIndices` | Foundation.js:68-77 | the char units' indices are exactly 0, 1, ..., k-1, where k counts the non-newline characters; newlines take no index |
| `Foundation.TypesetRenders` | Foundation.js:68-77 | node i is a break exactly when character i is a newline; otherwise it is the char unit for character i, indexed by the number of non-newline characters before it |
| `Foundation.TypeLine` | Foundation.js:68-77 | the imperative loop with its running `charIndex` computes the same nodes and count, and they read back as the input with consecutive indices |
| `Foundation.LineOpts` | Foundation.js:50-54 | an object argument's non-empty `className` overrides `opts.className`; everything else in the options is kept |
| `Foundation.WriteLine` | Foundation.js:46-83 | appends exactly one line, leaves earlier lines unchanged, and scrolls to the bottom. The line shows the text (an object's `text`, or `''` when missing). It is plain text when not animated and the typeset nodes when animated |
| `Foundation.WriteLineTypesets` | Foundation.js:64-81 | an animated line renders the text character by character, with indices 0..k-1 |
| `Foundation.AnimateText` | Foundation.js:92-122 | the wrapper reads back as the text, with indices 0..k-1. It contains a cursor exactly when `opts.cursor` is set, and then as its last node. The duration is `max(0, (k-1)*step + 420)` ms, where the step is `baseDelay` when it is a number and 20 ms otherwise |
| `Foundation.RemoveFirstCursor` | Foundation.js:126-129 | `querySelector('.cursor')?.remove()` removes exactly the first cursor and keeps every other node in order; with no cursor nothing changes |
| `Foundation.Settle` | Foundation.js:125-130 | the resolve callback's cursor removal: the wrapper still reads back as the same text with the same indices; without a cursor flag or without a cursor nothing changes, otherwise exactly the first cursor is removed and every other node is kept unchanged and in order |
| `Foundation.AnimateThenSettle` | Foundation.js:113-131 | when the promise resolves, the cursor is gone and the wrapper holds exactly the typeset text, which reads back as the input |
| `Foundation.ResolvesAfterLastChar` | Foundation.js:121-131 | with a non-negative step, the promise resolves at least 420 ms after every character's animation delay, and exactly 420 ms after the last character's |
| `Foundation.ScrollToBottom` | Foundation.js:138-140 | scrolls to the bottom and touches nothing else |
| `Foundation.ClearOutput` | Foundation.js:145-148 | the log is emptied and the view scrolled to the top; prompt and focus are untouched |
| `Foundation.ShowPrompt` | Foundation.js:153-155 | the prompt becomes visible; log, scroll and focus are untouched |
| `Foundation.HidePrompt` | Foundation.js:160-162 | the prompt becomes hidden; log, scroll and focus are untouched |
| `Foundation.FocusInput` | Foundation.js:167-169 | the input gains focus; log, scroll and prompt visibility are untouched |
| `Terminus.Lookup` | src/scripts/Terminus.js:41-47 | a name is found exactly when it is one of `ls`, `clear`, `scramblybugs`, `test`, `hide` (case-sensitive), and the found command is registered under that name |
| `Terminus.LookupName` | src/scripts/Terminus.js:41-47 | every command is found under its own name |
| `Terminus.Parse` | src/scripts/Terminus.js:89 | blank input gives the name `""` and no arguments; otherwise the name and the arguments together spell the input's non-whitespace characters in order |
| `Terminus.ParseWords` | src/scripts/Terminus.js:89 | for non-blank input, the name and every argument are non-empty and whitespace-free, and the name is the leading word of the trimmed input |
| `Terminus.ParseWord` | src/scripts/Terminus.js:89 | a single word parses as that name with no arguments |
| `Terminus.ParseJoin` | src/scripts/Terminus.js:89 | whitespace of any kind and length before, between and after the words is dropped: the name is the first word and the arguments are the others, in order |
| `Terminus.StartTicker` | src/scripts/Terminus.js:130-136 | a new timer starts and its handle replaces the kept one; every other part of the session is unchanged |
| `Terminus.ReadLine` | src/scripts/Terminus.js:54-62 | the one pending slot now holds the new reader and the input is focused; `dropped` records whether a reader that was already waiting got overwritten (its promise can then never resolve); nothing else changes |
| `Terminus.ExecuteCommand` | src/scripts/Terminus.js:68-87 | a blank command changes nothing. Any other command appends one echo line showing the raw text, leaves earlier lines unchanged, and leaves its animation in flight |
| `Terminus.SettleEcho` | src/scripts/Terminus.js:81-86 | ending the echo leaves no echo in flight and changes neither the number of lines nor the pending read |
| `Terminus.OnEnter` | src/scripts/Terminus.js:23-32 | Enter always clears the field and sets `isPromptActive`. With no pending read the text is dropped and nothing else changes |
| `Terminus.Resume` | src/scripts/Terminus.js:105-116 | a resolved REPL read of a blank line prompts again with the log and echo unchanged; any other line hides the prompt, leaves the pending slot as it was, keeps every earlier line, and appends one echo line showing exactly that text with its animation in flight. A resolved read of the `test` loop (lines 141-144) appends one line showing the line and keeps earlier lines; after `exit` the REPL reads again with the prompt shown, otherwise `test` reads again |
| `Terminus.Handle` | src/scripts/Terminus.js:90-99 | every handler but `test` (and the error path) ends back at the REPL's read, scrolled to the bottom with the prompt shown; `test` waits in its own read with the prompt as it was; only `clear` removes lines (all of them), the others only add; only `scramblybugs` touches the timer; the echo, the field and `isPromptActive` are untouched |
| `Terminus.Dispatch` | src/scripts/Terminus.js:89-99 | after parsing, the read left pending is `test`'s exactly when the name is `test`, and the REPL's (with the prompt shown) otherwise; the echo and the field are untouched |
| `Terminus.Step` | src/scripts/Terminus.js:23-32 | typing only changes the field; Enter always empties it and sets `isPromptActive`; an event nothing waits for (Enter with no read pending, the end of an echo that is not animating, a tick with no timer started) changes nothing else; the end of an echo settles it and leaves `test`'s read pending when the name is `test` and the REPL's otherwise; a tick never changes what is waited on and only adds to the log; only Type and Enter touch the field |
| `TerminusProperties.InitWf` | src/scripts/Terminus.js:6-14 | after construction and the first prompt, the invariant holds, the REPL's read is pending, and the log is empty |
| `TerminusProperties.ContinueWaits` | src/scripts/Terminus.js:98-99 | finishing a command scrolls to the bottom and leaves the REPL waiting for a line with the prompt shown and the log untouched |
| `TerminusProperties.DispatchWf` | src/scripts/Terminus.js:89-99 | with the intended lookup, whatever the command, dispatching it ends in a well-formed state (the lookup as written is `Registry.DispatchAsWrittenWf`) |
| `TerminusProperties.HandleWf` | src/scripts/Terminus.js:90-95 | each handler and the error path end in a well-formed state |
| `TerminusProperties.SettleRunning` | src/scripts/Terminus.js:81-86 | once the echo ends, a command is running with nothing pending and the prompt hidden |
| `TerminusProperties.ExecuteWf` | src/scripts/Terminus.js:68-87 | starting a non-blank command leaves a well-formed state with its echo in flight |
| `TerminusProperties.ResumeWf` | src/scripts/Terminus.js:105-116 | resolving a read, for the REPL or for `test`, leads to a well-formed state |
| `TerminusProperties.StepWf` | src/scripts/Terminus.js:23-32 | with the intended lookup, every event preserves the invariant (the lookup as written is `Registry.StepAsWrittenWf`) |
| `TerminusProperties.WriteWf` | src/scripts/Terminus.js:132-135 | writing a line at any waiting point preserves the invariant, and an in-flight echo line stays where it was |
| `TerminusProperties.RunWf` | src/scripts/Terminus.js:105-117 | with the intended lookup, the invariant holds after any finite sequence of events |
| `TerminusProperties.Reachable` | src/scripts/Terminus.js:54-62 | with the intended lookup, in every reachable state exactly one continuation waits (a read or the echo), no `readLine` ever overwrote a reader still waiting (`dropped` stays false), and `isPromptActive` is always true; `Registry.ReachableAsWritten` gives the reachable states of the code as written |
| `TerminusProperties.ReplLine` | src/scripts/Terminus.js:105-116 | a blank line loops back to the prompt with no echo and the log unchanged; any other line hides the prompt and appends exactly one echo line showing it |
| `TerminusProperties.EnterWhileEchoing` | src/scripts/Terminus.js:23-32 | Enter during the echo animation clears the field and loses its text, because no read is pending |
| `TerminusProperties.EchoSettles` | src/scripts/Terminus.js:81-86 | however the animation ends, the echo line shows exactly the raw command; after a failure it is that plain text, after success the cursor is gone |
| `TerminusProperties.UnknownCommand` | src/scripts/Terminus.js:90-95 | an unknown name appends exactly one `error` line reading the untrimmed command followed by `" not recognized"`, and the REPL prompts again |
| `TerminusProperties.LsListing` | src/scripts/Terminus.js:120-124 | `ls` appends its fixed listing as one plain, non-animated line |
| `TerminusProperties.ClearEmpties` | src/scripts/Terminus.js:126-128 | `clear` empties the log |
| `TerminusProperties.HideIsTransient` | src/scripts/Terminus.js:147-149 | after `hide` the prompt is shown again and the log is unchanged |
| `TerminusProperties.ScramblybugsOverwrites` | src/scripts/Terminus.js:130-136 | `scramblybugs` writes one `info` line and starts a timer whose handle replaces the kept one |
| `TerminusProperties.TestStarts` | src/scripts/Terminus.js:138-145 | `test` writes its banner, then waits for a line in its own loop with the prompt still hidden |
| `TerminusProperties.TestEchoes` | src/scripts/Terminus.js:138-145 | each line read by `test` is echoed as one new line. After `exit` (echoed too) the REPL prompts again; otherwise the loop reads on |
| `TerminusProperties.TimerLine` | src/scripts/Terminus.js:132-135 | with no timer started a tick does nothing; afterwards each tick appends one plain line whose digits read back as the drawn number |
| `TerminusProperties.LsSession` | src/scripts/Terminus.js:68-100 | typing `ls`, pressing Enter and letting the echo finish appends the echo line and then the listing, with the prompt back |
| `Registry.RegistryGet` | src/scripts/Terminus.js:90 | the property read finds the five own keys as those commands, and also every name inherited from `Object.prototype`, and nothing else |
| `Registry.InheritedAreNotCommands` | src/scripts/Terminus.js:41-47 | no inherited name is one of the five commands |
| `Registry.AgreesOffPrototype` | src/scripts/Terminus.js:90-95 | apart from inherited names, the lookup as written behaves exactly as the intended exact lookup |
| `Registry.InheritedIsNotReported` | src/scripts/Terminus.js:90-95 | an inherited name writes no error line, where the intended lookup appends `"<cmd> not recognized"` |
| `Registry.ThrowingInheritedHalts` | src/scripts/Terminus.js:90-93 | a throwing inherited member changes nothing after the echo and leaves nothing pending with the prompt hidden, which breaks the session invariant |
| `Registry.DispatchAsWrittenWf` | src/scripts/Terminus.js:90-99 | executing a command as written ends well-formed, or halted exactly when the name is a throwing inherited member |
| `Registry.StepAsWrittenWf` | src/scripts/Terminus.js:23-32 | as written, every event keeps the session either well-formed or halted with the prompt hidden |
| `Registry.RunAsWrittenWf` | src/scripts/Terminus.js:105-117 | as written, the same holds after any finite sequence of events |
| `Registry.ReachableAsWritten` | src/scripts/Terminus.js:105-117 | from page load, the code as written is always either well-formed or stopped for good with the prompt hidden and nothing waiting for input |
| `Registry.StepAgrees` | src/scripts/Terminus.js:90-95 | an event that does not end the echo of an inherited name has the same effect as written as in the intended session model |
| `Registry.HaltedStep` | src/scripts/Terminus.js:132-135 | one event on a halted session keeps it halted with the prompt and timers as they were, and adds at most one timer line to the log |
| `Registry.HaltedIsFinal` | src/scripts/Terminus.js:105-117 | once halted, no event reaches the program again: the prompt never returns, the earlier log is kept as a prefix, and every later line is a timer line (none while no timer was started) |
| `Registry.ValueOfStopsTheRepl` | src/scripts/Terminus.js:92-93 | the command `valueOf` stops the REPL for good |
| `Registry.ValueOfFromStart` | src/scripts/Terminus.js:68-93 | from page load, typing `valueOf` and pressing Enter leaves only its echo line in the log and a halted session whose prompt never returns |
| `Registry.ConstructorIsSilent` | src/scripts/Terminus.js:92-95 | the command `constructor` is accepted silently instead of being reported as not recognized |

## Left out

- DOM plumbing. Element creation, `querySelector`, CSS classes other than the line's class, pixel scroll values and the `--i` custom property are left out. Scrolling, focus and prompt visibility are flags.
- Timing. `setTimeout` and `setInterval` are events, and `baseDelay` is whole milliseconds rather than floating-point seconds. A fractional delay, and the floating-point rounding in the duration formula, are not modelled.
- `Terminus.StartTicker`: the timer's handle is a counter. When a timer fires (`Tick`) is up to the environment, and the random number is the event's parameter. `Tick(n)` accepts any natural `n`, while `Math.floor(Math.random() * 1_000_000_000)` only draws `0 <= n < 10^9`; the wider range is kept on purpose, since no property depends on the bound. The interval length (100 ms) is not modelled.
- `console.error` in `executeCommand`'s catch branch, and the unused `promptText` read.
- `script.js`: it only constructs the two classes and calls `startREPL`.
- The non-termination of `startREPL`: the model folds finite sequences of events.
- `startREPL`'s check for `null`/`undefined`: the Enter handler always resolves with the field's string value, so that branch cannot be reached. Only the blank check is modelled.
- Arguments: every handler ignores them, so `Dispatch` uses only the name.
- Characters are Unicode scalar values, while JavaScript strings are sequences of UTF-16 code units. For a character outside the Basic Multilingual Plane, such as an emoji, `text.length` and `text[i]` see two code units. The source then writes two char spans with indices i and i+1 and counts one more unit in the duration; the model writes one span and counts one.
- `EchoFailed` over-approximates the `catch` branch of `executeCommand`. The promise `animateText` returns never rejects. The branch is reached only when `animateText` throws synchronously, and then it runs at once, with no `Enter` or `Tick` in between. The model lets that event arrive at any later point.
- `Foundation.AnimateText`: the `parent` element is not a parameter. The source empties it and appends the wrapper, so its old content is lost; the model returns the wrapper, and the echo line's body is that wrapper.
- `Foundation.ResolvesAfterLastChar`: stated only for a non-negative step. With a negative `baseDelay` the first character starts last, and the computed duration can end before its animation does.

## Findings

| source | as written | input that shows it | evidently intended | confidence | as-written member | corrected member |
|---|---|---|---|---|---|---|
| src/scripts/Terminus.js:90-93 | The command table is a plain object literal, read with `this.commandRegistry[cmdName]`. Names inherited from `Object.prototype` are found as well and then called without a receiver. `constructor` and `toString` return normally, so no error line is written. Every other inherited name throws a `TypeError`, which rejects `executeCommand` and with it `startREPL`: nothing waits for input any more, and the prompt stays hidden. | the command `valueOf` (also `constructor`, `hasOwnProperty`, `__proto__`, ...) | only the five registered names are commands; every other name gets the `"<cmd> not recognized"` line and the REPL continues | not executed | `Registry.ValueOfFromStart` | `TerminusProperties.UnknownCommand` |

=== FILE: common.dfy ===
/** Small value types shared by the renderer and the session model. */
module Common {

  /** An optional value: `None` stands for JavaScript's `null` / `undefined`. */
  datatype Option<+T> = None | Some(value: T) {

    /** The value, or `default` when absent (JavaScript's `x ?? default`). */
    function GetOr(default: T): T {
      match this
      case Some(v) => v
      case None => default
    }
  }

  /** `Math.max` on two integers. */
  function Max(a: int, b: int): (r: int)
    ensures r >= a && r >= b
    ensures r == a || r == b
  {
    if a >= b then a else b
  }
}

=== FILE: foundation.dfy ===
/**
 * The renderer (Foundation.js): the output log as a sequence of lines, each
 * line either plain text or a sequence of render nodes, together with the
 * scroll, prompt and focus state of the page. The DOM is replaced by values:
 * appending a child is sequence concatenation, a `<br>` is `Br`, a per-character
 * `<span class="char">` is `Char`, and the blinking cursor span is `Cursor`.
 */
module Foundation {
  import opened Common

  /** How a caller passed `opts.baseDelay`: absent (`undefined`/`null`), a
      number (here in whole milliseconds; the source passes seconds), or a
      value of some other type. */
  datatype Delay = Unset | Ms(ms: int) | NotANumber

  /** The options bag of writeChar, writeLine and animateText. An empty
      `className` stands for an absent or otherwise falsy class. */
  datatype Opts = Opts(baseDelay: Delay, className: string, cursor: bool)

  /** `{}` */
  const NoOpts: Opts := Opts(Unset, "", false)

  /** The default stagger step, 0.02 s. */
  const DefaultDelayMs: int := 20

  /** The fixed tail animateText waits for the last character's CSS animation. */
  const SettleMs: int := 420

  /** One child of a typewriter wrapper. A `Char` records the `--i` index,
      the extra class, and the per-index step of its `animation-delay`
      (absent when `baseDelay` was not a number). */
  datatype Node =
    | Br
    | Char(ch: char, index: nat, cls: string, stagger: Option<int>)
    | Cursor

  /** A line's content: text assigned directly, or a typewriter wrapper. */
  datatype Body = Plain(text: string) | Typewriter(nodes: seq<Node>) {
    /** The text a reader sees. */
    function Shown(): string {
      match this
      case Plain(t) => t
      case Typewriter(ns) => ReadBack(ns)
    }
  }

  /** `div.line.cmd-echo` written by writeLine, or `div.line` written for a command echo. */
  datatype LineKind = Written | Echoed

  /** One entry of the output log. For a plain body the class sits on the
      line itself; for a typewriter body, on its wrapper. */
  datatype Line = Line(kind: LineKind, cls: string, body: Body)

  /** Where the scroll container stands: at the top (after a clear), at the
      bottom, or behind content appended since it last scrolled. */
  datatype Scroll = Top | Bottom | Behind

  /** The four DOM regions the renderer owns, reduced to their state. */
  datatype Screen = Screen(lines: seq<Line>, scroll: Scroll, promptShown: bool, focused: bool)

  /** writeLine's first argument: a string, or an object `{ text, className }`. */
  datatype Content = Str(s: string) | Obj(text: Option<string>, className: string)

  /** The animation-delay step writeChar derives from `baseDelay` (`opts.baseDelay ?? 0.02`). */
  function Stagger(d: Delay): Option<int> {
    match d
    case Unset => Some(DefaultDelayMs)
    case Ms(ms) => Some(ms)
    case NotANumber => None
  }

  /** The step animateText uses: the number given, otherwise the default. */
  function AnimateDelay(d: Delay): int {
    match d
    case Ms(ms) => ms
    case _ => DefaultDelayMs
  }

  /** writeChar: appends one break for a newline and returns nothing; for any
      other character appends one char unit carrying it and its index, and
      returns that unit. */
  function WriteChar(parent: seq<Node>, ch: char, index: nat, opts: Opts): (r: (seq<Node>, Option<Node>))
    ensures |r.0| == |parent| + 1 && r.0[..|parent|] == parent
    ensures r.1 == None <==> ch == '\n'
    ensures ch == '\n' ==> r.0[|parent|] == Br
    ensures ch != '\n' ==> r.1 == Some(r.0[|parent|])
    ensures ch != '\n' ==> r.0[|parent|] == Char(ch, index, opts.className, Stagger(opts.baseDelay))
  {
    if ch == '\n' then (parent + [Br], None)
    else
      var span := Char(ch, index, opts.className, Stagger(opts.baseDelay));
      (parent + [span], Some(span))
  }

  /** Number of characters of `text` that are not newlines. */
  function Glyphs(text: string): nat
  {
    if text == [] then 0
    else Glyphs(text[..|text| - 1]) + (if text[|text| - 1] == '\n' then 0 else 1)
  }

  /** The wrapper's children after the per-character loop of writeLine and
      animateText: each character is passed to writeChar with the count of
      non-newline characters before it. */
  function Typeset(text: string, opts: Opts): (r: seq<Node>)
    ensures |r| == |text|
    ensures Cursor !in r
  {
    if text == [] then []
    else
      var init := text[..|text| - 1];
      WriteChar(Typeset(init, opts), text[|text| - 1], Glyphs(init), opts).0
  }

  /** The text one node stands for. */
  function Glyph(n: Node): string {
    match n
    case Br => "\n"
    case Char(c, _, _, _) => [c]
    case Cursor => ""
  }

  /** The text a sequence of nodes reads as: breaks read as newlines, the
      cursor reads as nothing. */
  function ReadBack(nodes: seq<Node>): string
  {
    if nodes == [] then ""
    else ReadBack(nodes[..|nodes| - 1]) + Glyph(nodes[|nodes| - 1])
  }

  /** The stagger indices of the char units, in order. */
  function Indices(nodes: seq<Node>): seq<nat>
  {
    if nodes == [] then []
    else
      var last := nodes[|nodes| - 1];
      Indices(nodes[..|nodes| - 1]) + (if last.Char? then [last.index] else [])
  }

  /** 0, 1, ..., n-1 */
  function Iota(n: nat): (r: seq<nat>)
    ensures |r| == n
    ensures forall i :: 0 <= i < n ==> r[i] == i
  {
    if n == 0 then [] else Iota(n - 1) + [n - 1]
  }

  /** `nodes` is the unit-by-unit rendering of `text`: one node per character
      in input order, a break exactly at each newline, and at every other
      character a char unit carrying it, the options' class and step, and as
      index the number of non-newline characters before it. */
  predicate Renders(nodes: seq<Node>, text: string, opts: Opts) {
    && |nodes| == |text|
    && forall k :: 0 <= k < |text| ==>
         if text[k] == '\n' then nodes[k] == Br
         else nodes[k] == Char(text[k], Glyphs(text[..k]), opts.className, Stagger(opts.baseDelay))
  }

  /** Reading the rendered units back, breaks as newlines, gives the input text. */
  lemma {:induction false} TypesetReadBack(text: string, opts: Opts)
    ensures ReadBack(Typeset(text, opts)) == text
    decreases |text|
  {
    if text != [] {
      var init := text[..|text| - 1];
      var r := Typeset(text, opts);
      assert r[..|r| - 1] == Typeset(init, opts);
      TypesetReadBack(init, opts);
      assert text == init + [text[|text| - 1]];
    }
  }

  /** The char units are indexed 0, 1, ..., k-1 where k counts the
      non-newline characters: newlines take no index. */
  lemma {:induction false} TypesetIndices(text: string, opts: Opts)
    ensures Indices(Typeset(text, opts)) == Iota(Glyphs(text))
    decreases |text|
  {
    if text != [] {
      var init := text[..|text| - 1];
      var r := Typeset(text, opts);
      assert r[..|r| - 1] == Typeset(init, opts);
      TypesetIndices(init, opts);
    }
  }

  /** The rendered units follow the input character by character. */
  lemma {:induction false} TypesetRenders(text: string, opts: Opts)
    ensures Renders(Typeset(text, opts), text, opts)
    decreases |text|
  {
    if text != [] {
      var n := |text| - 1;
      var init := text[..n];
      var r := Typeset(text, opts);
      assert r[..n] == Typeset(init, opts);
      TypesetRenders(init, opts);
      forall k | 0 <= k < |text|
        ensures if text[k] == '\n' then r[k] == Br
                else r[k] == Char(text[k], Glyphs(text[..k]), opts.className, Stagger(opts.baseDelay))
      {
        if k < n {
          assert r[k] == Typeset(init, opts)[k];
          assert text[k] == init[k];
          assert text[..k] == init[..k];
        } else {
          assert text[..k] == init;
        }
      }
    }
  }

  /** The per-character loop of writeLine (and of animateText): newlines
      append a break without consuming an index, every other character goes
      through writeChar with the running index. */
  method TypeLine(text: string, opts: Opts) returns (nodes: seq<Node>, count: nat)
    ensures nodes == Typeset(text, opts)
    ensures count == Glyphs(text)
    ensures ReadBack(nodes) == text
    ensures Indices(nodes) == Iota(count)
  {
    nodes := [];
    count := 0;
    var i := 0;
    while i < |text|
      invariant 0 <= i <= |text|
      invariant nodes == Typeset(text[..i], opts)
      invariant count == Glyphs(text[..i])
    {
      var ch := text[i];
      assert text[..i + 1][..i] == text[..i];
      if ch == '\n' {
        nodes := nodes + [Br];
      } else {
        var written := WriteChar(nodes, ch, count, opts);
        nodes := written.0;
        count := count + 1;
      }
      i := i + 1;
    }
    assert text[..|text|] == text;
    TypesetReadBack(text, opts);
    TypesetIndices(text, opts);
  }

  /** The text writeLine renders: the string itself, or the object's `text` (`''` when missing). */
  function ContentText(content: Content): string {
    match content
    case Str(s) => s
    case Obj(t, _) => t.GetOr("")
  }

  /** The options writeLine renders with: an object's non-empty `className` overrides `opts.className`. */
  function LineOpts(content: Content, opts: Opts): (r: Opts)
    ensures r.baseDelay == opts.baseDelay && r.cursor == opts.cursor
    ensures content.Obj? && content.className != "" ==> r.className == content.className
    ensures !(content.Obj? && content.className != "") ==> r.className == opts.className
  {
    if content.Obj? && content.className != "" then opts.(className := content.className) else opts
  }

  /** The last line of the log. */
  function LastLine(s: Screen): Line
    requires s.lines != []
  {
    s.lines[|s.lines| - 1]
  }

  /** scrollToBottom */
  function ScrollToBottom(s: Screen): (r: Screen)
    ensures r.scroll == Bottom
    ensures r.lines == s.lines && r.promptShown == s.promptShown && r.focused == s.focused
  {
    s.(scroll := Bottom)
  }

  /** writeLine: appends exactly one `line cmd-echo` to the log, leaves the
      earlier lines as they were, and scrolls to the bottom. Without
      animation the line is the text as given; with animation it is the
      unit-by-unit rendering of the text. Either way it shows the text. */
  function WriteLine(s: Screen, content: Content, animate: bool, opts: Opts): (r: Screen)
    ensures |r.lines| == |s.lines| + 1 && r.lines[..|s.lines|] == s.lines
    ensures LastLine(r).kind == Written
    ensures LastLine(r).cls == LineOpts(content, opts).className
    ensures LastLine(r).body.Shown() == ContentText(content)
    ensures !animate ==> LastLine(r).body == Plain(ContentText(content))
    ensures animate ==> LastLine(r).body == Typewriter(Typeset(ContentText(content), LineOpts(content, opts)))
    ensures r.scroll == Bottom && r.promptShown == s.promptShown && r.focused == s.focused
  {
    var text := ContentText(content);
    var o := LineOpts(content, opts);
    TypewriterShows(text, o);
    var body := if animate then Typewriter(Typeset(text, o)) else Plain(text);
    var line := Line(Written, o.className, body);
    AppendKeeps(s.lines, line);
    ScrollToBottom(s.(lines := s.lines + [line]))
  }

  lemma TypewriterShows(text: string, opts: Opts)
    ensures Typewriter(Typeset(text, opts)).Shown() == text
  {
    TypesetReadBack(text, opts);
  }

  lemma AppendKeeps<T>(xs: seq<T>, x: T)
    ensures (xs + [x])[..|xs|] == xs && (xs + [x])[|xs|] == x
  {
  }

  /** An animated writeLine emits one char unit per non-newline character
      and one break per newline, in input order, with the char units indexed
      0, 1, ..., k-1. */
  lemma WriteLineTypesets(s: Screen, content: Content, opts: Opts)
    ensures var body := LastLine(WriteLine(s, content, true, opts)).body;
      && body.Typewriter?
      && Renders(body.nodes, ContentText(content), LineOpts(content, opts))
      && Indices(body.nodes) == Iota(Glyphs(ContentText(content)))
  {
    TypesetRenders(ContentText(content), LineOpts(content, opts));
    TypesetIndices(ContentText(content), LineOpts(content, opts));
  }

  /** The state of animateText's wrapper right after the call, with the
      class it carries, whether a cursor was requested, and the delay in
      milliseconds after which the returned promise resolves. */
  datatype Animation = Animation(nodes: seq<Node>, cls: string, cursor: bool, durationMs: nat)

  /** The options animateText hands to writeChar: only the step, no class. */
  function InnerOpts(opts: Opts): Opts {
    Opts(Ms(AnimateDelay(opts.baseDelay)), "", false)
  }

  /** animateText: a fresh wrapper holding the unit-by-unit rendering of
      `text`, followed by a cursor exactly when one was requested. The
      promise resolves after max(0, (n-1) * step + 420) ms, n being the
      number of char units. */
  function AnimateText(text: string, opts: Opts): (r: Animation)
    ensures ReadBack(r.nodes) == text
    ensures opts.cursor <==> Cursor in r.nodes
    ensures opts.cursor ==> r.nodes[|r.nodes| - 1] == Cursor
    ensures Indices(r.nodes) == Iota(Glyphs(text))
    ensures r.durationMs == Duration(|Indices(r.nodes)|, AnimateDelay(opts.baseDelay))
    ensures r.cls == opts.className && r.cursor == opts.cursor
  {
    var inner := InnerOpts(opts);
    var typed := Typeset(text, inner);
    TypesetReadBack(text, inner);
    TypesetIndices(text, inner);
    AppendCursor(typed);
    var nodes := if opts.cursor then typed + [Cursor] else typed;
    var n := Glyphs(text);
    Animation(nodes, opts.className, opts.cursor, Duration(n, AnimateDelay(opts.baseDelay)))
  }

  /** `Math.max(0, (count - 1) * step + 420)`: the wait until the last of
      `count` staggered characters has finished its animation. */
  function Duration(count: nat, step: int): nat {
    Max(0, (count - 1) * step + SettleMs)
  }

  /** A trailing cursor reads as nothing and carries no index. */
  lemma AppendCursor(p: seq<Node>)
    ensures ReadBack(p + [Cursor]) == ReadBack(p)
    ensures Indices(p + [Cursor]) == Indices(p)
  {
    assert (p + [Cursor])[..|p|] == p;
  }

  /** The position of the first cursor. */
  function FirstCursor(nodes: seq<Node>): (k: nat)
    requires Cursor in nodes
    ensures k < |nodes| && nodes[k] == Cursor && Cursor !in nodes[..k]
  {
    if nodes[0] == Cursor then 0
    else
      var k := 1 + FirstCursor(nodes[1..]);
      assert nodes[..k] == [nodes[0]] + nodes[1..][..k - 1];
      k
  }

  /** `wrapper.querySelector('.cursor')?.remove()`: drops the first cursor, if
      any; every other node stays, in order. */
  function RemoveFirstCursor(nodes: seq<Node>): (r: seq<Node>)
    ensures Cursor !in nodes ==> r == nodes
    ensures Cursor in nodes ==> r == nodes[..FirstCursor(nodes)] + nodes[FirstCursor(nodes) + 1..]
  {
    if nodes == [] then []
    else if nodes[0] == Cursor then nodes[1..]
    else
      ConsSlices(nodes, if Cursor in nodes[1..] then FirstCursor(nodes[1..]) else 0);
      [nodes[0]] + RemoveFirstCursor(nodes[1..])
  }

  lemma ConsSlices(nodes: seq<Node>, k: nat)
    requires nodes != [] && k < |nodes|
    ensures nodes == [nodes[0]] + nodes[1..]
    ensures k + 1 < |nodes| ==> nodes[..k + 1] == [nodes[0]] + nodes[1..][..k]
    ensures k + 1 < |nodes| ==> nodes[k + 2..] == nodes[1..][k + 1..]
  {
  }

  /** The wrapper's children when animateText's promise resolves: the cursor,
      if one was shown, has been removed. */
  function Settle(a: Animation): (r: seq<Node>)
    ensures ReadBack(r) == ReadBack(a.nodes) && Indices(r) == Indices(a.nodes)
    ensures !a.cursor || Cursor !in a.nodes ==> r == a.nodes
    ensures a.cursor && Cursor in a.nodes ==> |r| == |a.nodes| - 1
    ensures a.cursor && Cursor in a.nodes ==>
      r == a.nodes[..FirstCursor(a.nodes)] + a.nodes[FirstCursor(a.nodes) + 1..]
  {
    if a.cursor && Cursor in a.nodes then
      var k := FirstCursor(a.nodes);
      CursorInvisible(a.nodes[..k], a.nodes[k + 1..]);
      assert a.nodes == a.nodes[..k] + [Cursor] + a.nodes[k + 1..];
      RemoveFirstCursor(a.nodes)
    else if a.cursor then RemoveFirstCursor(a.nodes)
    else a.nodes
  }

  /** A cursor reads as nothing and carries no index, wherever it sits. */
  lemma CursorInvisible(p: seq<Node>, q: seq<Node>)
    ensures ReadBack(p + [Cursor] + q) == ReadBack(p + q)
    ensures Indices(p + [Cursor] + q) == Indices(p + q)
  {
    ReadBackAppend(p + [Cursor], q);
    ReadBackAppend(p, q);
    IndicesAppend(p + [Cursor], q);
    IndicesAppend(p, q);
    AppendCursor(p);
  }

  lemma {:induction false} ReadBackAppend(a: seq<Node>, b: seq<Node>)
    ensures ReadBack(a + b) == ReadBack(a) + ReadBack(b)
    decreases |b|
  {
    if b == [] {
      assert a + b == a;
    } else {
      var b' := b[..|b| - 1];
      assert (a + b)[..|a + b| - 1] == a + b';
      ReadBackAppend(a, b');
    }
  }

  lemma {:induction false} IndicesAppend(a: seq<Node>, b: seq<Node>)
    ensures Indices(a + b) == Indices(a) + Indices(b)
    decreases |b|
  {
    if b == [] {
      assert a + b == a;
    } else {
      var b' := b[..|b| - 1];
      assert (a + b)[..|a + b| - 1] == a + b';
      IndicesAppend(a, b');
    }
  }

  lemma {:induction false} RemoveTrailingCursor(p: seq<Node>)
    requires Cursor !in p
    ensures RemoveFirstCursor(p + [Cursor]) == p
    decreases |p|
  {
    if p != [] {
      assert (p + [Cursor])[1..] == p[1..] + [Cursor];
      RemoveTrailingCursor(p[1..]);
    }
  }

  /** Before animateText's promise resolves the cursor is gone again and the
      wrapper holds exactly the rendering of the text, with or without a
      cursor having been requested. */
  lemma AnimateThenSettle(text: string, opts: Opts)
    ensures Cursor !in Settle(AnimateText(text, opts))
    ensures Settle(AnimateText(text, opts)) == Typeset(text, InnerOpts(opts))
    ensures ReadBack(Settle(AnimateText(text, opts))) == text
  {
    var inner := InnerOpts(opts);
    var typed := Typeset(text, inner);
    TypesetRenders(text, inner);
    TypesetReadBack(text, inner);
    if opts.cursor {
      RemoveTrailingCursor(typed);
    } else {
      assert typed + [] == typed;
    }
  }

  /** With a non-negative step, the promise resolves no earlier than 420 ms
      after every character's animation has started, and exactly 420 ms
      after the last one's. */
  lemma ResolvesAfterLastChar(text: string, opts: Opts)
    requires AnimateDelay(opts.baseDelay) >= 0
    ensures var a := AnimateText(text, opts);
      var ix := Indices(a.nodes);
      var step := AnimateDelay(opts.baseDelay);
      && (forall k :: 0 <= k < |ix| ==> ix[k] * step + SettleMs <= a.durationMs)
      && (|ix| > 0 ==> a.durationMs == ix[|ix| - 1] * step + SettleMs)
  {
    var a := AnimateText(text, opts);
    var ix := Indices(a.nodes);
    var step := AnimateDelay(opts.baseDelay);
    var n := |ix|;
    assert ix == Iota(n);
    forall k | 0 <= k < n
      ensures ix[k] * step + SettleMs <= a.durationMs
    {
      ScaleMonotone(k, n - 1, step);
    }
    if n > 0 {
      ScaleMonotone(0, n - 1, step);
    }
  }

  lemma ScaleMonotone(a: int, b: int, c: int)
    requires 0 <= a <= b && c >= 0
    ensures 0 <= a * c <= b * c
  {
  }

  /** clearOutput: the log is emptied and the view scrolled to the top. */
  function ClearOutput(s: Screen): (r: Screen)
    ensures r.lines == [] && r.scroll == Top
    ensures r.promptShown == s.promptShown && r.focused == s.focused
  {
    s.(lines := [], scroll := Top)
  }

  /** showPrompt: the prompt becomes visible; the log, scroll and focus are untouched. */
  function ShowPrompt(s: Screen): (r: Screen)
    ensures r.promptShown
    ensures r.lines == s.lines && r.scroll == s.scroll && r.focused == s.focused
  {
    s.(promptShown := true)
  }

  /** hidePrompt: the prompt becomes invisible; the log, scroll and focus are untouched. */
  function HidePrompt(s: Screen): (r: Screen)
    ensures !r.promptShown
    ensures r.lines == s.lines && r.scroll == s.scroll && r.focused == s.focused
  {
    s.(promptShown := false)
  }

  /** focusInput: the input field has focus; the log, scroll and prompt are untouched. */
  function FocusInput(s: Screen): (r: Screen)
    ensures r.focused
    ensures r.lines == s.lines && r.scroll == s.scroll && r.promptShown == s.promptShown
  {
    s.(focused := true)
  }
}

=== FILE: jstext.dfy ===
/**
 * The two JavaScript string primitives the command line relies on:
 * `String.prototype.trim` and `String.prototype.split(/\s+/)`.
 * Both use the same whitespace class (ECMAScript WhiteSpace plus
 * LineTerminator), defined once here as `IsSpace`. Scanning is written with
 * positions into the string rather than with slices.
 */
module JsText {

  /** The code points ECMAScript counts as WhiteSpace or LineTerminator;
      these are exactly what `trim` strips and what `\s` matches. */
  predicate IsSpace(c: char) {
    || c == '\t' || c == '\n' || c == '\U{000B}' || c == '\U{000C}' || c == '\r'
    || c == ' ' || c == '\U{00A0}' || c == '\U{1680}'
    || ('\U{2000}' <= c <= '\U{200A}')
    || c == '\U{2028}' || c == '\U{2029}' || c == '\U{202F}' || c == '\U{205F}'
    || c == '\U{3000}' || c == '\U{FEFF}'
  }

  /** Every character is whitespace (the empty string included). */
  predicate Blank(s: string) {
    forall i :: 0 <= i < |s| ==> IsSpace(s[i])
  }

  /** No character is whitespace. */
  predicate SpaceFree(s: string) {
    forall i :: 0 <= i < |s| ==> !IsSpace(s[i])
  }

  /** The first position at or after `i` that is not whitespace (or the end). */
  function SkipSpaces(s: string, i: nat): (j: nat)
    requires i <= |s|
    ensures i <= j <= |s|
    ensures j < |s| ==> !IsSpace(s[j])
    decreases |s| - i
  {
    if i == |s| || !IsSpace(s[i]) then i else SkipSpaces(s, i + 1)
  }

  /** Everything `SkipSpaces` skips is whitespace. */
  lemma {:induction false} SkippedSpaces(s: string, i: nat)
    requires i <= |s|
    ensures forall k :: i <= k < SkipSpaces(s, i) ==> IsSpace(s[k])
    decreases |s| - i
  {
    if i < |s| && IsSpace(s[i]) {
      SkippedSpaces(s, i + 1);
    }
  }

  /** The first position at or after `i` that is whitespace (or the end). */
  function SkipWord(s: string, i: nat): (j: nat)
    requires i <= |s|
    ensures i <= j <= |s|
    ensures j < |s| ==> IsSpace(s[j])
    decreases |s| - i
  {
    if i == |s| || IsSpace(s[i]) then i else SkipWord(s, i + 1)
  }

  /** A non-whitespace run from `i` that stops at whitespace or the end at
      `j` is what `SkipWord` finds. */
  lemma WordEndsAt(s: string, i: nat, j: nat)
    requires i <= j <= |s|
    requires forall k :: i <= k < j ==> !IsSpace(s[k])
    requires j < |s| ==> IsSpace(s[j])
    ensures SkipWord(s, i) == j
  {
    SkippedWord(s, i);
  }

  /** Everything `SkipWord` skips is not whitespace. */
  lemma {:induction false} SkippedWord(s: string, i: nat)
    requires i <= |s|
    ensures forall k :: i <= k < SkipWord(s, i) ==> !IsSpace(s[k])
    decreases |s| - i
  {
    if i < |s| && !IsSpace(s[i]) {
      SkippedWord(s, i + 1);
    }
  }

  /** The start of the whitespace run that ends at position `j`. */
  function BackSpaces(s: string, j: nat): (k: nat)
    requires j <= |s|
    ensures k <= j
    ensures k > 0 ==> !IsSpace(s[k - 1])
  {
    if j == 0 || !IsSpace(s[j - 1]) then j else BackSpaces(s, j - 1)
  }

  /** Everything `BackSpaces` steps over is whitespace. */
  lemma {:induction false} SteppedSpaces(s: string, j: nat)
    requires j <= |s|
    ensures forall m :: BackSpaces(s, j) <= m < j ==> IsSpace(s[m])
  {
    if j > 0 && IsSpace(s[j - 1]) {
      SteppedSpaces(s, j - 1);
    }
  }

  /** `s.trim()`: leading and trailing whitespace removed. The result is a
      slice of the input with only whitespace cut off before and after it; it
      is empty exactly for a blank string, and otherwise starts and ends with
      a non-whitespace character, so no more whitespace could be cut. */
  function Trim(s: string): (r: string)
    ensures exists i, j :: 0 <= i <= j <= |s| && Blank(s[..i]) && Blank(s[j..]) && r == s[i..j]
    ensures r == "" <==> Blank(s)
    ensures r != "" ==> !IsSpace(r[0]) && !IsSpace(r[|r| - 1])
  {
    SkippedSpaces(s, 0);
    SteppedSpaces(s, |s|);
    var i := SkipSpaces(s, 0);
    var j := BackSpaces(s, |s|);
    if i < j then
      assert Blank(s[..i]) && Blank(s[j..]);
      s[i..j]
    else
      assert Blank(s[..0]) && Blank(s[0..]) && s[0..0] == "";
      ""
  }

  /** The characters of `s` that are not whitespace, in order. */
  function NonSpace(s: string): string
  {
    if s == [] then []
    else NonSpace(s[..|s| - 1]) + (if IsSpace(s[|s| - 1]) then [] else [s[|s| - 1]])
  }

  /** The pieces of `s[i..]` between maximal whitespace runs. */
  function SplitFrom(s: string, i: nat): (r: seq<string>)
    requires i <= |s|
    ensures |r| >= 1
    decreases |s| - i
  {
    var j := SkipWord(s, i);
    if j == |s| then [s[i..]]
    else [s[i..j]] + SplitFrom(s, SkipSpaces(s, j))
  }

  /** `s.split(/\s+/)`: the pieces between maximal whitespace runs. As in
      JavaScript, a leading or trailing run yields an empty first or last
      piece, and the empty string splits into `[""]`. */
  function Split(s: string): (r: seq<string>)
    ensures |r| >= 1
    ensures Concat(r) == NonSpace(s)
    ensures s != "" && !IsSpace(s[0]) && !IsSpace(s[|s| - 1]) ==> Words(r)
  {
    SplitFromKeepsText(s, 0);
    assert s[0..] == s;
    if s != "" && !IsSpace(s[0]) && !IsSpace(s[|s| - 1]) then
      SplitFromWords(s, 0);
      SplitFrom(s, 0)
    else
      SplitFrom(s, 0)
  }

  /** The concatenation of a sequence of strings. */
  function Concat(ts: seq<string>): string
  {
    if ts == [] then "" else ts[0] + Concat(ts[1..])
  }

  /** The strings of `ts` with the separators `gaps` between them:
      `ts[0] + gaps[0] + ts[1] + ... + ts[n]`. */
  function JoinWith(ts: seq<string>, gaps: seq<string>): string
    requires |ts| == |gaps| + 1
    decreases |gaps|
  {
    if gaps == [] then ts[0] else ts[0] + gaps[0] + JoinWith(ts[1..], gaps[1..])
  }

  /** Every separator is a non-empty run of whitespace. */
  predicate Gaps(gaps: seq<string>) {
    forall i :: 0 <= i < |gaps| ==> gaps[i] != "" && Blank(gaps[i])
  }

  /** Every piece is a non-empty word without whitespace. */
  predicate Words(ts: seq<string>) {
    forall i :: 0 <= i < |ts| ==> ts[i] != "" && SpaceFree(ts[i])
  }

  lemma {:induction false} NonSpaceAppend(a: string, b: string)
    ensures NonSpace(a + b) == NonSpace(a) + NonSpace(b)
    decreases |b|
  {
    if b == [] {
      assert a + b == a;
    } else {
      var b' := b[..|b| - 1];
      assert (a + b)[..|a + b| - 1] == a + b';
      NonSpaceAppend(a, b');
    }
  }

  lemma {:induction false} NonSpaceOfBlank(s: string)
    requires Blank(s)
    ensures NonSpace(s) == []
    decreases |s|
  {
    if s != [] {
      NonSpaceOfBlank(s[..|s| - 1]);
    }
  }

  lemma {:induction false} NonSpaceOfSpaceFree(s: string)
    requires SpaceFree(s)
    ensures NonSpace(s) == s
    decreases |s|
  {
    if s != [] {
      NonSpaceOfSpaceFree(s[..|s| - 1]);
    }
  }

  lemma SliceThree(s: string, i: nat, j: nat, k: nat)
    requires i <= j <= k <= |s|
    ensures s[i..] == s[i..j] + s[j..k] + s[k..]
  {
    assert s[i..] == s[i..j] + s[j..];
    assert s[j..] == s[j..k] + s[k..];
  }

  /** Whitespace on either side of `b` contributes nothing to `NonSpace`. */
  lemma NonSpaceBetween(a: string, b: string, c: string)
    requires Blank(a) && Blank(c)
    ensures NonSpace(a + b + c) == NonSpace(b)
  {
    NonSpaceAppend(a + b, c);
    NonSpaceAppend(a, b);
    NonSpaceOfBlank(a);
    NonSpaceOfBlank(c);
  }

  /** Trimming removes whitespace only: every other character survives, in order. */
  lemma TrimKeepsText(s: string)
    ensures NonSpace(Trim(s)) == NonSpace(s)
  {
    var i := SkipSpaces(s, 0);
    var j := BackSpaces(s, |s|);
    if i < j {
      SkippedSpaces(s, 0);
      SteppedSpaces(s, |s|);
      BlankEnds(s, i, j);
    } else {
      assert Trim(s) == "";
      NonSpaceOfBlank(s);
    }
  }

  /** Cutting whitespace off both ends keeps the non-whitespace text. */
  lemma BlankEnds(s: string, i: nat, j: nat)
    requires i <= j <= |s|
    requires forall k :: 0 <= k < i ==> IsSpace(s[k])
    requires forall k :: j <= k < |s| ==> IsSpace(s[k])
    ensures NonSpace(s[i..j]) == NonSpace(s)
  {
    var a, b, c := s[..i], s[i..j], s[j..];
    assert Blank(a) && Blank(c);
    SliceThree(s, 0, i, j);
    assert s[0..] == s && s[0..i] == a;
    NonSpaceBetween(a, b, c);
  }

  lemma SplitFromCons(s: string, i: nat)
    requires i <= |s| && SkipWord(s, i) < |s|
    ensures SplitFrom(s, i) == [s[i..SkipWord(s, i)]] + SplitFrom(s, SkipSpaces(s, SkipWord(s, i)))
  {
  }

  /** The first piece runs from the start position to the first whitespace. */
  lemma SplitFromFirst(s: string, i: nat)
    requires i <= |s|
    ensures SplitFrom(s, i)[0] == s[i..SkipWord(s, i)]
  {
    if SkipWord(s, i) == |s| {
      assert s[i..] == s[i..|s|];
    }
  }

  lemma WordsCons(t: string, ts: seq<string>)
    requires t != "" && SpaceFree(t) && Words(ts)
    ensures Words([t] + ts)
  {
    var r := [t] + ts;
    forall i | 0 <= i < |r| ensures r[i] != "" && SpaceFree(r[i]) {
      if i > 0 {
        assert r[i] == ts[i - 1];
      }
    }
  }

  /** From a non-whitespace position of a string that ends in a non-space,
      every piece is a non-empty word. */
  lemma {:induction false} SplitFromWords(s: string, i: nat)
    requires i < |s| && !IsSpace(s[i]) && !IsSpace(s[|s| - 1])
    ensures Words(SplitFrom(s, i))
    decreases |s| - i
  {
    var j := SkipWord(s, i);
    SkippedWord(s, i);
    if j == |s| {
      assert SplitFrom(s, i) == [s[i..]];
    } else {
      var k := SkipSpaces(s, j);
      SkippedSpaces(s, j);
      assert k < |s|;
      SplitFromWords(s, k);
      SplitFromCons(s, i);
      WordsCons(s[i..j], SplitFrom(s, k));
    }
  }

  lemma ConcatCons(t: string, ts: seq<string>)
    ensures Concat([t] + ts) == t + Concat(ts)
  {
    assert ([t] + ts)[1..] == ts;
  }

  /** From any position, the pieces concatenate to the remaining text with
      its whitespace removed. */
  lemma {:induction false} SplitFromKeepsText(s: string, i: nat)
    requires i <= |s|
    ensures Concat(SplitFrom(s, i)) == NonSpace(s[i..])
    decreases |s| - i
  {
    var j := SkipWord(s, i);
    SkippedWord(s, i);
    if j == |s| {
      assert SpaceFree(s[i..]);
      NonSpaceOfSpaceFree(s[i..]);
      ConcatCons(s[i..], []);
    } else {
      var k := SkipSpaces(s, j);
      SkippedSpaces(s, j);
      var word, gap, rest := s[i..j], s[j..k], s[k..];
      SliceThree(s, i, j, k);
      assert SpaceFree(word) && Blank(gap);
      SplitFromKeepsText(s, k);
      SplitFromCons(s, i);
      ConcatCons(word, SplitFrom(s, k));
      WordThenGap(word, gap, rest);
    }
  }

  lemma WordThenGap(word: string, gap: string, rest: string)
    requires SpaceFree(word) && Blank(gap)
    ensures NonSpace(word + gap + rest) == word + NonSpace(rest)
  {
    WordGap(word, gap);
    NonSpaceAppend(word + gap, rest);
  }

  lemma WordGap(word: string, gap: string)
    requires SpaceFree(word) && Blank(gap)
    ensures NonSpace(word + gap) == word
  {
    NonSpaceOfBlank(gap);
    NonSpaceAppend(word, gap);
    NonSpaceOfSpaceFree(word);
  }

  lemma {:induction false} SkipWordShift(p: string, s: string, i: nat)
    requires i <= |s|
    ensures SkipWord(p + s, |p| + i) == |p| + SkipWord(s, i)
    decreases |s| - i
  {
    if i < |s| {
      assert (p + s)[|p| + i] == s[i];
      SkipWordShift(p, s, i + 1);
    }
  }

  lemma {:induction false} SkipSpacesShift(p: string, s: string, i: nat)
    requires i <= |s|
    ensures SkipSpaces(p + s, |p| + i) == |p| + SkipSpaces(s, i)
    decreases |s| - i
  {
    if i < |s| {
      assert (p + s)[|p| + i] == s[i];
      SkipSpacesShift(p, s, i + 1);
    }
  }

  /** Splitting does not look behind its starting position. */
  lemma {:induction false} SplitFromShift(p: string, s: string, i: nat)
    requires i <= |s|
    ensures SplitFrom(p + s, |p| + i) == SplitFrom(s, i)
    decreases |s| - i
  {
    var j := SkipWord(s, i);
    SkipWordShift(p, s, i);
    if j == |s| {
      LastPieceShift(p, s, i);
    } else {
      var k := SkipSpaces(s, j);
      SkipSpacesShift(p, s, j);
      SplitFromShift(p, s, k);
      PieceShift(p, s, i, j, k);
    }
  }

  lemma LastPieceShift(p: string, s: string, i: nat)
    requires i <= |s| && SkipWord(s, i) == |s|
    requires SkipWord(p + s, |p| + i) == |p| + |s|
    ensures SplitFrom(p + s, |p| + i) == SplitFrom(s, i)
  {
    assert (p + s)[|p| + i..] == s[i..];
  }

  lemma PieceShift(p: string, s: string, i: nat, j: nat, k: nat)
    requires i <= j < |s| && SkipWord(s, i) == j && SkipSpaces(s, j) == k
    requires SkipWord(p + s, |p| + i) == |p| + j
    requires SkipSpaces(p + s, |p| + j) == |p| + k
    requires SplitFrom(p + s, |p| + k) == SplitFrom(s, k)
    ensures SplitFrom(p + s, |p| + i) == SplitFrom(s, i)
  {
    var ps := p + s;
    assert ps[|p| + i..|p| + j] == s[i..j];
    SplitFromCons(ps, |p| + i);
    SplitFromCons(s, i);
  }

  lemma JoinStartsWord(ts: seq<string>, gaps: seq<string>)
    requires |ts| == |gaps| + 1 && Words(ts)
    ensures JoinWith(ts, gaps) != "" && JoinWith(ts, gaps)[0] == ts[0][0]
  {
  }

  lemma WordsTail(ts: seq<string>)
    requires |ts| >= 1 && Words(ts)
    ensures Words(ts[1..])
  {
    forall i | 0 <= i < |ts| - 1 ensures ts[1..][i] != "" && SpaceFree(ts[1..][i]) {
      assert ts[1..][i] == ts[i + 1];
    }
  }

  lemma GapsTail(gaps: seq<string>)
    requires |gaps| >= 1 && Gaps(gaps)
    ensures Gaps(gaps[1..])
  {
    forall i | 0 <= i < |gaps| - 1 ensures gaps[1..][i] != "" && Blank(gaps[1..][i]) {
      assert gaps[1..][i] == gaps[i + 1];
    }
  }

  /** A whitespace run from `i` that stops at a non-space or the end at `j`
      is what `SkipSpaces` skips. */
  lemma SpacesEndAt(s: string, i: nat, j: nat)
    requires i <= j <= |s|
    requires forall k :: i <= k < j ==> IsSpace(s[k])
    requires j < |s| ==> !IsSpace(s[j])
    ensures SkipSpaces(s, i) == j
  {
    SkippedSpaces(s, i);
  }

  /** A word, a whitespace run, and a text starting with a word split into
      that word followed by the pieces of the text. */
  lemma SplitWordGap(t: string, g: string, j: string)
    requires t != "" && SpaceFree(t) && g != "" && Blank(g) && j != "" && !IsSpace(j[0])
    ensures Split(t + g + j) == [t] + Split(j)
  {
    var s := (t + g) + j;
    GapBounds(t, g, j);
    SplitFromCons(s, 0);
    assert s[0..|t|] == t;
    SplitFromShift(t + g, j, 0);
  }

  /** In a word, a whitespace run and a text starting with a non-space, the
      first word ends where the run starts, and the run ends where the text
      starts. */
  lemma GapBounds(t: string, g: string, j: string)
    requires t != "" && SpaceFree(t) && g != "" && Blank(g) && j != "" && !IsSpace(j[0])
    ensures SkipWord((t + g) + j, 0) == |t|
    ensures SkipSpaces((t + g) + j, |t|) == |t + g|
  {
    var s := (t + g) + j;
    var m := |t| + |g|;
    assert forall k :: 0 <= k < |t| ==> s[k] == t[k];
    assert s[|t|] == g[0];
    WordEndsAt(s, 0, |t|);
    assert forall k :: |t| <= k < m ==> s[k] == g[k - |t|];
    assert s[m] == j[0];
    SpacesEndAt(s, |t|, m);
  }

  /** A non-whitespace run followed by a whitespace run ending at `j` is
      what `BackSpaces` steps back over. */
  lemma BackSpacesEndAt(s: string, i: nat, j: nat)
    requires i <= j <= |s|
    requires forall k :: i <= k < j ==> IsSpace(s[k])
    requires i > 0 ==> !IsSpace(s[i - 1])
    ensures BackSpaces(s, j) == i
  {
    SteppedSpaces(s, j);
  }

  /** Whitespace around a text with non-whitespace ends is exactly what
      `trim` removes. */
  lemma TrimPadded(lead: string, x: string, trail: string)
    requires Blank(lead) && Blank(trail)
    requires x != "" && !IsSpace(x[0]) && !IsSpace(x[|x| - 1])
    ensures Trim(lead + x + trail) == x
  {
    var s := lead + x + trail;
    var i, j := |lead|, |lead| + |x|;
    assert SkipSpaces(s, 0) == i by {
      assert forall k :: 0 <= k < i ==> s[k] == lead[k];
      assert s[i] == x[0];
      SpacesEndAt(s, 0, i);
    }
    assert BackSpaces(s, |s|) == j by {
      assert forall k :: j <= k < |s| ==> s[k] == trail[k - j];
      assert s[j - 1] == x[|x| - 1];
      BackSpacesEndAt(s, j, |s|);
    }
    assert s[i..j] == x;
  }

  /** Words joined by whitespace runs end with the last word's last character. */
  lemma {:induction false} JoinEndsWord(ts: seq<string>, gaps: seq<string>)
    requires |ts| == |gaps| + 1 && Words(ts)
    ensures var s := JoinWith(ts, gaps); var w := ts[|ts| - 1];
      s != "" && s[|s| - 1] == w[|w| - 1]
    decreases |gaps|
  {
    if gaps != [] {
      WordsTail(ts);
      JoinEndsWord(ts[1..], gaps[1..]);
    }
  }

  /** Split undoes JoinWith: words separated by any non-empty whitespace
      runs split back into exactly those words. */
  lemma {:induction false} SplitJoin(ts: seq<string>, gaps: seq<string>)
    requires |ts| == |gaps| + 1 && Words(ts) && Gaps(gaps)
    ensures Split(JoinWith(ts, gaps)) == ts
    decreases |gaps|
  {
    var t := ts[0];
    if gaps == [] {
      WordEndsAt(t, 0, |t|);
      assert t[0..] == t;
    } else {
      var rest, gs := ts[1..], gaps[1..];
      WordsTail(ts);
      GapsTail(gaps);
      JoinStartsWord(rest, gs);
      SplitJoin(rest, gs);
      SplitWordGap(t, gaps[0], JoinWith(rest, gs));
      assert ts == [t] + rest;
    }
  }

  /** The digit character for `d`. */
  function DigitChar(d: nat): char
    requires d < 10
  {
    ('0' as int + d) as char
  }

  predicate IsDigit(c: char) {
    '0' <= c <= '9'
  }

  /** The value of a digit character; the inverse of `DigitChar`. */
  function DigitValue(c: char): (d: nat)
    requires IsDigit(c)
    ensures d < 10 && DigitChar(d) == c
  {
    c as int - '0' as int
  }

  /** `String(n)` for a non-negative integer: its decimal digits, most
      significant first, without leading zeros. */
  function Decimal(n: nat): (r: string)
    ensures r != ""
    ensures forall i :: 0 <= i < |r| ==> IsDigit(r[i])
    ensures r[0] == '0' ==> n == 0 && r == "0"
    decreases n
  {
    if n < 10 then [DigitChar(n)] else Decimal(n / 10) + [DigitChar(n % 10)]
  }

  /** The number a string of decimal digits denotes. */
  function DecimalValue(s: string): nat
    requires forall i :: 0 <= i < |s| ==> IsDigit(s[i])
  {
    if s == [] then 0
    else DecimalValue(s[..|s| - 1]) * 10 + DigitValue(s[|s| - 1])
  }

  /** Reading the digits back gives the number. */
  lemma {:induction false} DecimalRoundTrip(n: nat)
    ensures DecimalValue(Decimal(n)) == n
    decreases n
  {
    if n >= 10 {
      var r := Decimal(n);
      assert r[..|r| - 1] == Decimal(n / 10);
      DecimalRoundTrip(n / 10);
    }
  }
}

=== FILE: registry.dfy ===
/**
 * The command table as src/scripts/Terminus.js actually consults it.
 *
 * `_buildCommandRegistry` returns a plain object literal, and
 * `executeCommand` looks the name up with `this.commandRegistry[cmdName]`.
 * A plain object inherits the members of `Object.prototype`, so a name such
 * as `valueOf` or `constructor` is found as well, and what is found is
 * called as `commandFn(args)`, without a receiver. Two of the inherited
 * members (`Object` itself and `Object.prototype.toString`) return normally
 * when called so; every other one throws a `TypeError` (`__proto__` because
 * what it yields is not callable). The throw rejects `executeCommand` after
 * its echo and before it scrolls or focuses, which rejects `startREPL`: the
 * loop is gone, nothing waits for input, and the prompt stays hidden.
 *
 * `Terminus.Dispatch` is the intended behaviour (only the five own keys are
 * commands); `DispatchAsWritten` is the behaviour of the code as written,
 * and `StepAsWritten` is the session loop built on it.
 */
module Registry {
  import opened Common
  import opened JsText
  import opened Foundation
  import opened Terminus
  import opened TerminusProperties

  /** The enumerable and non-enumerable properties every plain object
      inherits from `Object.prototype`. */
  const InheritedNames: set<string> := {
    "constructor", "__defineGetter__", "__defineSetter__", "hasOwnProperty",
    "__lookupGetter__", "__lookupSetter__", "isPrototypeOf",
    "propertyIsEnumerable", "toString", "valueOf", "__proto__", "toLocaleString"
  }

  /** The inherited members that return normally when called with an
      `undefined` receiver: `Object(args)` and `Object.prototype.toString()`. */
  const HarmlessInherited: set<string> := {"constructor", "toString"}

  /** What a property read on the table can yield. */
  datatype Found = Own(c: Command) | Inherited(name: string)

  /** `this.commandRegistry[name]`, truthy or not: the own keys first, then
      the prototype chain. */
  function RegistryGet(name: string): (r: Option<Found>)
    ensures r.Some? <==> name in Names || name in InheritedNames
    ensures r.Some? && r.value.Own? <==> Lookup(name).Some?
    ensures Lookup(name).Some? ==> r == Some(Own(Lookup(name).value))
    ensures r.Some? && r.value.Inherited? ==> r.value.name == name && name in InheritedNames
  {
    match Lookup(name)
    case Some(c) => Some(Own(c))
    case None => if name in InheritedNames then Some(Inherited(name)) else None
  }

  /** executeCommand after the echo, as written. An own key runs its handler
      and a missing name writes the error line, as intended. An inherited
      member writes nothing: the two harmless ones let the command finish
      normally; any other throws, and the session stops where it is. */
  function DispatchAsWritten(st: Session, cmd: string): Session {
    HandleAsWritten(st, cmd, RegistryGet(Parse(cmd).0))
  }

  /** What is run for what the property read yielded. */
  function HandleAsWritten(st: Session, cmd: string, found: Option<Found>): Session {
    match found
    case Some(Own(c)) => Handle(st, cmd, Some(c))
    case Some(Inherited(n)) => if n in HarmlessInherited then Continue(st) else st
    case None => Handle(st, cmd, None)
  }

  /** The session loop as written: `Terminus.Step`, except that the command
      whose echo ends is looked up in the object literal. */
  function StepAsWritten(st: Session, ev: Event): Session {
    match ev
    case EchoDone => if st.echo.Some? then DispatchAsWritten(SettleEcho(st, false), st.echo.value.cmd) else st
    case EchoFailed => if st.echo.Some? then DispatchAsWritten(SettleEcho(st, true), st.echo.value.cmd) else st
    case _ => Step(st, ev)
  }

  /** The code as written's reaction to a finite sequence of events. */
  function RunAsWritten(st: Session, evs: seq<Event>): Session
    decreases |evs|
  {
    if evs == [] then st else RunAsWritten(StepAsWritten(st, evs[0]), evs[1..])
  }

  /** No continuation is suspended: neither a read nor an echo is pending,
      so nothing the user does can reach the program again. */
  predicate Halted(st: Session) {
    st.pending.None? && st.echo.None?
  }

  /** The states the code as written can be in between two events: those of
      the session invariant, and stopped ones with the prompt hidden. */
  predicate WfOrHalted(st: Session) {
    || Wf(st)
    || (Halted(st) && st.promptActive && !st.dropped && !st.screen.promptShown && TickerKept(st.ticker))
  }

  /** A line a scramblybugs timer writes. */
  ghost predicate IsTickLine(l: Line) {
    exists n: nat :: l == Line(Written, "", Plain(Decimal(n)))
  }

  /** No inherited name is one of the five commands. */
  lemma InheritedAreNotCommands()
    ensures Names !! InheritedNames
  {
  }

  /** The two lookups differ exactly on the inherited names; elsewhere the
      code as written behaves as intended. */
  lemma AgreesOffPrototype(st: Session, cmd: string)
    requires Parse(cmd).0 !in InheritedNames
    ensures DispatchAsWritten(st, cmd) == Dispatch(st, cmd)
  {
  }

  /** An inherited name writes no error line, where the intended table
      would append "<cmd> not recognized". */
  lemma InheritedIsNotReported(st: Session, cmd: string)
    requires Parse(cmd).0 in InheritedNames
    ensures DispatchAsWritten(st, cmd).screen.lines == st.screen.lines
    ensures Lookup(Parse(cmd).0) == None
    ensures Dispatch(st, cmd).screen.lines == st.screen.lines + [LastLine(Dispatch(st, cmd).screen)]
    ensures LastLine(Dispatch(st, cmd).screen).body.Shown() == cmd + NotRecognized
  {
    InheritedAreNotCommands();
    var w := Write(st, ErrorLine(cmd), true, NoOpts);
    assert w.screen.lines == st.screen.lines + [LastLine(w.screen)];
  }

  /** A throwing inherited member leaves the session halted, with the prompt
      as hidden as the command left it; the session invariant is broken. */
  lemma ThrowingInheritedHalts(st: Session, cmd: string)
    requires Running(st)
    requires Parse(cmd).0 in InheritedNames - HarmlessInherited
    ensures DispatchAsWritten(st, cmd) == st
    ensures Halted(DispatchAsWritten(st, cmd))
    ensures !DispatchAsWritten(st, cmd).screen.promptShown
    ensures !Wf(DispatchAsWritten(st, cmd))
  {
    InheritedAreNotCommands();
  }

  /** One event on a halted session: it stays halted, the prompt and the
      timers are as they were, and the log gains at most one timer line
      (none while no timer was started). */
  lemma HaltedStep(st: Session, ev: Event)
    requires Halted(st)
    ensures var r := StepAsWritten(st, ev);
      && Halted(r) && r.screen.promptShown == st.screen.promptShown && r.ticker == st.ticker
      && r.promptActive == (st.promptActive || ev.Enter?)
      && (r.screen.lines == st.screen.lines
          || (st.ticker.started > 0 && |r.screen.lines| == |st.screen.lines| + 1
              && r.screen.lines[..|st.screen.lines|] == st.screen.lines && IsTickLine(LastLine(r.screen))))
  {
    if ev.Tick? && st.ticker.started > 0 {
      var r := StepAsWritten(st, ev);
      assert LastLine(r.screen) == Line(Written, "", Plain(Decimal(ev.n)));
    }
  }

  /** A halted session stays halted whatever the user types or presses: the
      prompt never comes back, and the log changes only by the lines of
      scramblybugs timers started before the halt. */
  lemma {:induction false} HaltedIsFinal(st: Session, evs: seq<Event>)
    requires Halted(st)
    ensures var r := RunAsWritten(st, evs);
      && Halted(r)
      && r.screen.promptShown == st.screen.promptShown
      && r.ticker == st.ticker
      && st.screen.lines <= r.screen.lines
      && (forall i :: |st.screen.lines| <= i < |r.screen.lines| ==> IsTickLine(r.screen.lines[i]))
      && (st.ticker.started == 0 ==> r.screen.lines == st.screen.lines)
    decreases |evs|
  {
    if evs != [] {
      var s1 := StepAsWritten(st, evs[0]);
      HaltedStep(st, evs[0]);
      HaltedIsFinal(s1, evs[1..]);
      var r := RunAsWritten(st, evs);
      assert r == RunAsWritten(s1, evs[1..]);
      forall i | |st.screen.lines| <= i < |r.screen.lines|
        ensures IsTickLine(r.screen.lines[i])
      {
        if i < |s1.screen.lines| {
          assert r.screen.lines[i] == s1.screen.lines[i] == LastLine(s1.screen);
        }
      }
    }
  }

  /** Concretely: the line `valueOf` (echoed, then run) stops the REPL for good. */
  lemma ValueOfStopsTheRepl(st: Session, evs: seq<Event>)
    requires Running(st)
    ensures Parse("valueOf") == ("valueOf", [])
    ensures var r := DispatchAsWritten(st, "valueOf");
      && Halted(r)
      && Halted(RunAsWritten(r, evs))
      && !RunAsWritten(r, evs).screen.promptShown
      && (st.ticker.started == 0 ==> RunAsWritten(r, evs).screen.lines == st.screen.lines)
  {
    ParseSingleWord("valueOf");
    ThrowingInheritedHalts(st, "valueOf");
    HaltedIsFinal(DispatchAsWritten(st, "valueOf"), evs);
  }

  /** From page load: typing `valueOf` and pressing Enter echoes it, and
      once the echo ends the page is stopped with only the echo line in the
      log; whatever happens afterwards, the prompt never returns. */
  lemma ValueOfFromStart(evs: seq<Event>)
    ensures var r := RunAsWritten(Init(), [Type("valueOf"), Enter, EchoDone]);
      && Halted(r) && !r.screen.promptShown
      && |r.screen.lines| == 1
      && r.screen.lines[0].kind == Echoed
      && r.screen.lines[0].body.Shown() == "valueOf"
      && !RunAsWritten(r, evs).screen.promptShown
  {
    var cmd := "valueOf";
    var s0 := Init();
    InitWf();
    assert !Blank(cmd) by {
      assert !IsSpace(cmd[0]);
    }
    CommandEchoed(s0, cmd);
    var s2 := Step(Step(s0, Type(cmd)), Enter);
    assert StepAsWritten(StepAsWritten(s0, Type(cmd)), Enter) == s2;
    var settled := SettleEcho(s2, false);
    CommandSettled(s0, s2);
    ValueOfHalts(settled, s2, evs);
    RunAsWrittenThree(s0, Type(cmd), Enter, EchoDone);
  }

  /** The end of the `valueOf` echo leaves the settled state as it is. */
  lemma ValueOfHalts(settled: Session, s2: Session, evs: seq<Event>)
    requires s2.echo.Some? && s2.echo.value.cmd == "valueOf"
    requires settled == SettleEcho(s2, false) && Running(settled)
    ensures StepAsWritten(s2, EchoDone) == settled
    ensures Halted(settled) && !RunAsWritten(settled, evs).screen.promptShown
  {
    ParseSingleWord("valueOf");
    ThrowingInheritedHalts(settled, "valueOf");
    HaltedIsFinal(settled, evs);
  }

  lemma RunAsWrittenThree(st: Session, a: Event, b: Event, c: Event)
    ensures RunAsWritten(st, [a, b, c]) == StepAsWritten(StepAsWritten(StepAsWritten(st, a), b), c)
  {
    var s1 := StepAsWritten(st, a);
    var s2 := StepAsWritten(s1, b);
    assert [a, b, c][1..] == [b, c];
    assert [b, c][1..] == [c];
    assert [c][1..] == [];
    calc {
      RunAsWritten(st, [a, b, c]);
      RunAsWritten(s1, [b, c]);
      RunAsWritten(s2, [c]);
      RunAsWritten(StepAsWritten(s2, c), []);
    }
  }

  /** Concretely: the line `constructor` is accepted silently, where the
      intended table reports "constructor not recognized". */
  lemma ConstructorIsSilent(st: Session)
    requires Running(st)
    ensures Parse("constructor") == ("constructor", [])
    ensures DispatchAsWritten(st, "constructor") == Continue(st)
    ensures LastLine(Dispatch(st, "constructor").screen).body.Shown() == "constructor not recognized"
  {
    ParseSingleWord("constructor");
    ConstructorAsWritten(st);
    ConstructorReported(st);
  }

  lemma ConstructorAsWritten(st: Session)
    requires Parse("constructor").0 == "constructor"
    ensures DispatchAsWritten(st, "constructor") == Continue(st)
  {
    InheritedAreNotCommands();
    assert RegistryGet("constructor") == Some(Inherited("constructor"));
    assert DispatchAsWritten(st, "constructor") == HandleAsWritten(st, "constructor", Some(Inherited("constructor")));
  }

  lemma ConstructorReported(st: Session)
    requires Parse("constructor").0 == "constructor"
    ensures LastLine(Dispatch(st, "constructor").screen).body.Shown() == "constructor not recognized"
  {
    InheritedIsNotReported(st, "constructor");
    ConstructorMessage();
  }

  lemma ConstructorMessage()
    ensures "constructor" + NotRecognized == "constructor not recognized"
  {
  }

  /** Every inherited name is a single word, parsed with no arguments. */
  lemma ParseSingleWord(w: string)
    requires w in InheritedNames
    ensures Parse(w) == (w, [])
  {
    assert IdentifierChars(w);
    IdentifierIsWord(w);
    ParseWord(w);
  }

  lemma IdentifierIsWord(w: string)
    requires IdentifierChars(w)
    ensures w != "" && SpaceFree(w)
  {
  }

  /** ASCII letters and underscores only. */
  predicate IdentifierChars(w: string) {
    w != [] && forall i :: 0 <= i < |w| ==> 'a' <= w[i] <= 'z' || 'A' <= w[i] <= 'Z' || w[i] == '_'
  }

  /** Executing a command as written ends in a well-formed state, or in a
      stopped one exactly when the name is a throwing inherited member. */
  lemma DispatchAsWrittenWf(st: Session, cmd: string)
    requires Running(st)
    ensures WfOrHalted(DispatchAsWritten(st, cmd))
    ensures Halted(DispatchAsWritten(st, cmd)) <==> Parse(cmd).0 in InheritedNames - HarmlessInherited
  {
    var name := Parse(cmd).0;
    InheritedAreNotCommands();
    HandleAsWrittenWf(st, cmd, RegistryGet(name));
  }

  lemma HandleAsWrittenWf(st: Session, cmd: string, found: Option<Found>)
    requires Running(st)
    ensures WfOrHalted(HandleAsWritten(st, cmd, found))
    ensures Halted(HandleAsWritten(st, cmd, found))
      <==> found.Some? && found.value.Inherited? && found.value.name !in HarmlessInherited
  {
    match found
    case Some(Own(c)) => HandleWf(st, cmd, Some(c));
    case Some(Inherited(n)) =>
      if n in HarmlessInherited {
        ContinueWaits(st);
      }
    case None => HandleWf(st, cmd, None);
  }

  /** Every event keeps the code as written among its possible states. */
  lemma StepAsWrittenWf(st: Session, ev: Event)
    requires WfOrHalted(st)
    ensures WfOrHalted(StepAsWritten(st, ev))
  {
    if Halted(st) && !Wf(st) {
      HaltedStep(st, ev);
    } else if (ev.EchoDone? || ev.EchoFailed?) && st.echo.Some? {
      var failed := ev.EchoFailed?;
      SettleRunning(st, failed);
      DispatchAsWrittenWf(SettleEcho(st, failed), st.echo.value.cmd);
    } else {
      StepWf(st, ev);
    }
  }

  lemma {:induction false} RunAsWrittenWf(st: Session, evs: seq<Event>)
    requires WfOrHalted(st)
    ensures WfOrHalted(RunAsWritten(st, evs))
    decreases |evs|
  {
    if evs != [] {
      StepAsWrittenWf(st, evs[0]);
      RunAsWrittenWf(StepAsWritten(st, evs[0]), evs[1..]);
    }
  }

  /** From page load, the code as written is always either in a state of the
      session invariant, or stopped for good with the prompt hidden and
      nothing waiting for input. */
  lemma ReachableAsWritten(evs: seq<Event>)
    ensures var r := RunAsWritten(Init(), evs);
      || Wf(r)
      || (Halted(r) && !r.screen.promptShown)
  {
    InitWf();
    RunAsWrittenWf(Init(), evs);
  }

  /** An event that does not end the echo of an inherited name has the same
      effect as written as in the session model. */
  lemma StepAgrees(st: Session, ev: Event)
    requires (ev.EchoDone? || ev.EchoFailed?) && st.echo.Some? ==> Parse(st.echo.value.cmd).0 !in InheritedNames
    ensures StepAsWritten(st, ev) == Step(st, ev)
  {
    if (ev.EchoDone? || ev.EchoFailed?) && st.echo.Some? {
      AgreesOffPrototype(SettleEcho(st, ev.EchoFailed?), st.echo.value.cmd);
    }
  }
}

=== FILE: terminus.dfy ===
/**
 * The session loop (src/scripts/Terminus.js) as a state machine over values.
 *
 * The program is single-threaded and suspended at one point at a time:
 * either a read is pending in the one-slot channel (`pending`), or the echo
 * of a command is animating (`echo`). Every outside stimulus is an `Event`:
 * the user typing into the input field, the Enter key, the end (or failure)
 * of the echo animation, and a timer tick. Between two events the program
 * runs to its next suspension, which `Step` computes; `Run` folds a finite
 * sequence of events. Command names are looked up in the five registered
 * keys only; the lookup the code performs on the object literal is in the
 * `Registry` module.
 */
module Terminus {
  import opened Common
  import opened JsText
  import opened Foundation

  /** The five entries of the command table. */
  datatype Command = Ls | Clear | Scramblybugs | Test | Hide

  /** The key under which each command is registered. */
  function Name(c: Command): string {
    match c
    case Ls => "ls"
    case Clear => "clear"
    case Scramblybugs => "scramblybugs"
    case Test => "test"
    case Hide => "hide"
  }

  /** The registered names. */
  const Names: set<string> := {"ls", "clear", "scramblybugs", "test", "hide"}

  /** Exact, case-sensitive lookup of a command name in the table. */
  function Lookup(name: string): (r: Option<Command>)
    ensures r.Some? <==> name in Names
    ensures r.Some? ==> Name(r.value) == name
  {
    if name == "ls" then Some(Ls)
    else if name == "clear" then Some(Clear)
    else if name == "scramblybugs" then Some(Scramblybugs)
    else if name == "test" then Some(Test)
    else if name == "hide" then Some(Hide)
    else None
  }

  /** Every command is found under its own name. */
  lemma LookupName(c: Command)
    ensures Lookup(Name(c)) == Some(c)
  {
  }

  /** `cmd.trim().split(/\s+/)` destructured into a name and arguments:
      together they spell the command's non-whitespace characters in order.
      A blank command yields the name `""` and no arguments. */
  function Parse(cmd: string): (r: (string, seq<string>))
    ensures Trim(cmd) == "" ==> r == ("", [])
    ensures r.0 + Concat(r.1) == NonSpace(cmd)
  {
    var tokens := Split(Trim(cmd));
    TrimKeepsText(cmd);
    assert Concat(tokens) == tokens[0] + Concat(tokens[1..]);
    (tokens[0], tokens[1..])
  }

  /** For a non-blank command the name and every argument are non-empty
      whitespace-free words, and the name is the leading word of the trimmed
      input. */
  lemma ParseWords(cmd: string)
    requires Trim(cmd) != ""
    ensures var (name, args) := Parse(cmd);
      && name != "" && SpaceFree(name) && Words(args)
      && name == Trim(cmd)[..SkipWord(Trim(cmd), 0)]
  {
    var t := Trim(cmd);
    var tokens := Split(t);
    SplitFromFirst(t, 0);
    assert tokens[0] != "" && SpaceFree(tokens[0]);
    forall i | 0 <= i < |tokens| - 1
      ensures tokens[1..][i] != "" && SpaceFree(tokens[1..][i])
    {
      assert tokens[1..][i] == tokens[i + 1];
    }
  }

  /** A single word parses as that name with no arguments. */
  lemma ParseWord(w: string)
    requires w != "" && SpaceFree(w)
    ensures Parse(w) == (w, [])
  {
    assert Trim(w) == w;
    SplitJoin([w], []);
  }

  /** Any whitespace before, between and after the words of a command is
      dropped: the name is the first word and the arguments are the rest. */
  lemma ParseJoin(lead: string, ts: seq<string>, gaps: seq<string>, trail: string)
    requires Blank(lead) && Blank(trail)
    requires |ts| == |gaps| + 1 && Words(ts) && Gaps(gaps)
    ensures Parse(lead + JoinWith(ts, gaps) + trail) == (ts[0], ts[1..])
  {
    var x := JoinWith(ts, gaps);
    JoinStartsWord(ts, gaps);
    JoinEndsWord(ts, gaps);
    TrimPadded(lead, x, trail);
    SplitJoin(ts, gaps);
  }

  /** Whose continuation sits in the pending-read slot: the REPL loop, or
      the echo loop of the `test` command. */
  datatype Reader = Repl | TestEcho

  /** A command whose echo is animating: its text, the position of its echo
      line in the log, and what animateText put there. */
  datatype Echo = Echo(cmd: string, at: nat, anim: Animation)

  /** The scramblybugs timers: how many were started, and the one handle
      kept in `scramblyInterval` (earlier handles are overwritten). */
  datatype Ticker = Ticker(started: nat, handle: Option<nat>)

  /** Everything the session loop and the page hold between two events.
      `dropped` records whether a read was ever requested while another was
      still pending, which would silently lose the earlier reader's
      continuation (the slot holds one resolver). */
  datatype Session = Session(
    screen: Screen,
    input: string,
    promptActive: bool,
    pending: Option<Reader>,
    echo: Option<Echo>,
    ticker: Ticker,
    dropped: bool)

  /** What can happen next: the user replaces the input field's text, presses
      Enter, the echo animation's promise resolves or rejects, or one of the
      running scramblybugs timers fires having drawn the number `n`
      (`Math.floor(Math.random() * 1_000_000_000)`). */
  datatype Event = Type(text: string) | Enter | EchoDone | EchoFailed | Tick(n: nat)

  /** The echo animation: 0.01 s stagger, with a cursor. */
  const EchoOpts: Opts := Opts(Ms(10), "", true)

  /** The fixed listing `ls` writes (separated by no-break spaces). */
  const LsText: string := "file1.txt\U{00A0}\U{00A0}notes.md\U{00A0}\U{00A0}script.sh"

  /** `ls` passes a 1 s delay, which a non-animated line never uses. */
  const LsOpts: Opts := Opts(Ms(1000), "", false)

  const TickerBanner: string := "scramblybugs started"
  const TestBanner: string := "This is a test line."
  const TestExit: string := "exit"
  const NotRecognized: string := " not recognized"

  /** The error line for an unknown command. */
  function ErrorLine(cmd: string): Content {
    Obj(Some(cmd + NotRecognized), "error")
  }

  /** `this.foundation.writeLine(...)` */
  function Write(st: Session, content: Content, animate: bool, opts: Opts): Session {
    st.(screen := WriteLine(st.screen, content, animate, opts))
  }

  /** readLine: the slot holds the caller's continuation and the input gets
      focus. It overwrites whatever the slot held, so a reader already
      waiting there is lost, which `dropped` records. */
  function ReadLine(st: Session, reader: Reader): (r: Session)
    ensures r.pending == Some(reader)
    ensures r.dropped <==> st.dropped || st.pending.Some?
    ensures r.screen.focused
    ensures r.(pending := st.pending, dropped := st.dropped, screen := st.screen) == st
    ensures r.screen.(focused := st.screen.focused) == st.screen
  {
    st.(pending := Some(reader), dropped := st.dropped || st.pending.Some?, screen := FocusInput(st.screen))
  }

  /** The head of startREPL's loop: show the prompt, then wait for a line. */
  function Prompt(st: Session): Session {
    ReadLine(st.(screen := ShowPrompt(st.screen)), Repl)
  }

  /** The end of executeCommand (scroll, focus while the prompt is active),
      after which startREPL's loop comes round again. */
  function Continue(st: Session): Session {
    var scrolled := ScrollToBottom(st.screen);
    var focused := if st.promptActive then FocusInput(scrolled) else scrolled;
    Prompt(st.(screen := focused))
  }

  /** `scramblyInterval = setInterval(...)`: a new timer whose handle replaces the kept one. */
  function StartTicker(st: Session): (r: Session)
    ensures r.ticker.started == st.ticker.started + 1
    ensures r.ticker.handle == Some(st.ticker.started)
    ensures r.(ticker := st.ticker) == st
  {
    st.(ticker := Ticker(st.ticker.started + 1, Some(st.ticker.started)))
  }

  /** executeCommand up to its first suspension. A blank command changes
      nothing. Any other command gets one new echo line, appended after the
      existing ones without scrolling, which shows the command's raw text;
      the animation of that line is then in flight. */
  function ExecuteCommand(st: Session, cmd: string): (r: Session)
    ensures Trim(cmd) == "" ==> r == st
    ensures Trim(cmd) != "" ==> |r.screen.lines| == |st.screen.lines| + 1
    ensures Trim(cmd) != "" ==> r.screen.lines[..|st.screen.lines|] == st.screen.lines
    ensures Trim(cmd) != "" ==> LastLine(r.screen).kind == Echoed
    ensures Trim(cmd) != "" ==> LastLine(r.screen).body.Shown() == cmd
    ensures Trim(cmd) != "" ==> r.echo.Some? && r.echo.value.cmd == cmd && r.echo.value.at == |st.screen.lines|
    ensures Trim(cmd) != "" ==> r.pending == st.pending && r.screen.promptShown == st.screen.promptShown
    ensures r.ticker == st.ticker && r.input == st.input && r.promptActive == st.promptActive
  {
    if Trim(cmd) == "" then st
    else
      var anim := AnimateText(cmd, EchoOpts);
      var line := Line(Echoed, "", Typewriter(anim.nodes));
      var at := |st.screen.lines|;
      st.(screen := st.screen.(lines := st.screen.lines + [line], scroll := Behind),
          echo := Some(Echo(cmd, at, anim)))
  }

  /** The echo line once animateText has settled: the cursor removed when
      the promise resolved, or the raw text put in its place when it failed. */
  function SettleEcho(st: Session, failed: bool): (r: Session)
    ensures r.echo == None
    ensures |r.screen.lines| == |st.screen.lines|
    ensures r.pending == st.pending && r.ticker == st.ticker && r.input == st.input
    ensures r.promptActive == st.promptActive
    ensures r.screen.promptShown == st.screen.promptShown && r.screen.scroll == st.screen.scroll
  {
    match st.echo
    case None => st
    case Some(e) =>
      var body := if failed then Plain(e.cmd) else Typewriter(Settle(e.anim));
      var lines := if e.at < |st.screen.lines| then st.screen.lines[e.at := Line(Echoed, "", body)]
                   else st.screen.lines;
      st.(screen := st.screen.(lines := lines), echo := None)
  }

  /** executeCommand after the echo: parse, then run what the table holds
      under the name. Only `test` keeps a read of its own pending; every
      other name, found or not, ends back at the REPL's prompt. */
  function Dispatch(st: Session, cmd: string): (r: Session)
    ensures r.pending == Some(if Parse(cmd).0 == "test" then TestEcho else Repl)
    ensures Parse(cmd).0 != "test" ==> r.screen.promptShown
    ensures r.echo == st.echo && r.input == st.input
  {
    Handle(st, cmd, Lookup(Parse(cmd).0))
  }

  /** The handler of a found command, or the error line for an unknown one,
      followed by the end of executeCommand. Every handler but `test`'s
      returns to the REPL, which scrolls down and shows the prompt; `test`
      waits in its own read. Only `clear` removes lines, and only
      `scramblybugs` starts a timer. */
  function Handle(st: Session, cmd: string, found: Option<Command>): (r: Session)
    ensures found != Some(Test) ==> r.pending == Some(Repl) && r.screen.promptShown && r.screen.scroll == Bottom
    ensures found == Some(Test) ==> r.pending == Some(TestEcho) && r.screen.promptShown == st.screen.promptShown
    ensures found == Some(Clear) ==> r.screen.lines == []
    ensures found != Some(Clear) ==> st.screen.lines <= r.screen.lines
    ensures found != Some(Scramblybugs) ==> r.ticker == st.ticker
    ensures r.echo == st.echo && r.input == st.input && r.promptActive == st.promptActive
  {
    match found
    case Some(Ls) => Continue(Write(st, Str(LsText), false, LsOpts))
    case Some(Clear) => Continue(st.(screen := ClearOutput(st.screen)))
    case Some(Scramblybugs) => Continue(StartTicker(Write(st, Obj(Some(TickerBanner), "info"), true, NoOpts)))
    case Some(Test) => ReadLine(Write(st, Str(TestBanner), true, NoOpts), TestEcho)
    case Some(Hide) => Continue(st.(screen := HidePrompt(st.screen)))
    case None => Continue(Write(st, ErrorLine(cmd), true, NoOpts))
  }

  /** A read resolved with `line`: the continuation waiting in the slot runs
      to its next suspension. For the REPL a blank line goes straight back
      to the prompt; anything else hides the prompt and executes. For the
      `test` loop the line is echoed, and the loop ends after `exit`. */
  function Resume(st: Session, reader: Reader, line: string): (r: Session)
    ensures reader == Repl && Blank(line) ==>
      r.pending == Some(Repl) && r.echo == st.echo && r.screen.lines == st.screen.lines && r.screen.promptShown
    ensures reader == Repl && !Blank(line) ==>
      && r.pending == st.pending && r.echo.Some? && r.echo.value.cmd == line
      && !r.screen.promptShown && |r.screen.lines| == |st.screen.lines| + 1
      && r.screen.lines[..|st.screen.lines|] == st.screen.lines
      && LastLine(r.screen).body.Shown() == line
    ensures reader == TestEcho ==>
      && |r.screen.lines| == |st.screen.lines| + 1
      && r.screen.lines[..|st.screen.lines|] == st.screen.lines
      && LastLine(r.screen).body.Shown() == line
      && r.pending == Some(if line == TestExit then Repl else TestEcho)
      && (line == TestExit ==> r.screen.promptShown)
  {
    match reader
    case Repl =>
      if Trim(line) == "" then Prompt(st)
      else ExecuteCommand(st.(screen := HidePrompt(st.screen)), line)
    case TestEcho =>
      var echoed := Write(st, Str(line), true, NoOpts);
      if line == TestExit then Continue(echoed) else ReadLine(echoed, TestEcho)
  }

  /** The Enter key: the field's text is taken and the field cleared, the
      prompt is marked active, and a pending read is resolved with the text
      after its slot is emptied. With no read pending the text is dropped. */
  function OnEnter(st: Session): (r: Session)
    ensures r.input == "" && r.promptActive
    ensures st.pending.None? ==> r == st.(input := "", promptActive := true)
  {
    var line := st.input;
    var cleared := st.(input := "", promptActive := true);
    match st.pending
    case None => cleared
    case Some(reader) => Resume(cleared.(pending := None), reader, line)
  }

  /** The program's reaction to one event. Typing only changes the field;
      Enter always empties it; an event that nothing waits for (an Enter with
      no read pending, the end of an echo that is not animating, a tick with
      no timer started) changes nothing else; the end of an echo runs the
      command, which leaves a read pending; a tick never disturbs what the
      program waits on and only adds to the log. */
  function Step(st: Session, ev: Event): (r: Session)
    ensures ev.Type? ==> r == st.(input := ev.text)
    ensures ev.Enter? ==> r.input == "" && r.promptActive
    ensures ev.Enter? && st.pending.None? ==> r == st.(input := "", promptActive := true)
    ensures (ev.EchoDone? || ev.EchoFailed?) && st.echo.None? ==> r == st
    ensures (ev.EchoDone? || ev.EchoFailed?) && st.echo.Some? ==>
      r.echo.None? && r.pending == Some(if Parse(st.echo.value.cmd).0 == "test" then TestEcho else Repl)
    ensures ev.Tick? && st.ticker.started == 0 ==> r == st
    ensures ev.Tick? ==> r.pending == st.pending && r.echo == st.echo && st.screen.lines <= r.screen.lines
    ensures !ev.Type? && !ev.Enter? ==> r.input == st.input
  {
    match ev
    case Type(text) => st.(input := text)
    case Enter => OnEnter(st)
    case EchoDone => if st.echo.Some? then Dispatch(SettleEcho(st, false), st.echo.value.cmd) else st
    case EchoFailed => if st.echo.Some? then Dispatch(SettleEcho(st, true), st.echo.value.cmd) else st
    case Tick(n) => if st.ticker.started > 0 then Write(st, Str(Decimal(n)), false, NoOpts) else st
  }

  /** The program's reaction to a finite sequence of events. */
  function Run(st: Session, evs: seq<Event>): Session
    decreases |evs|
  {
    if evs == [] then st else Run(Step(st, evs[0]), evs[1..])
  }

  /** The page as the constructor leaves it, after startREPL's first prompt. */
  function Init(): Session {
    Prompt(Session(Screen([], Top, false, false), "", true, None, None, Ticker(0, None), false))
  }

  /** The kept ticker handle is that of the most recently started timer. */
  predicate TickerKept(t: Ticker) {
    t.handle == (if t.started == 0 then None else Some(t.started - 1))
  }

  /** The echo in flight is still in the log where it was appended, exactly
      as animateText drew it for the command's text. (Only timer lines can
      have been appended after it.) */
  predicate EchoDrawn(st: Session)
    requires st.echo.Some?
  {
    var e := st.echo.value;
    && Trim(e.cmd) != ""
    && e.at < |st.screen.lines|
    && e.anim == AnimateText(e.cmd, EchoOpts)
    && st.screen.lines[e.at] == Line(Echoed, "", Typewriter(e.anim.nodes))
  }

  /** The session invariant. The program is suspended at exactly one point,
      and no read was ever requested while another was pending; the prompt
      is hidden while a command runs and shown while the REPL waits;
      `isPromptActive` is always set; the kept ticker handle is the most
      recent one. */
  predicate Wf(st: Session) {
    && st.promptActive
    && !st.dropped
    && (st.pending.Some? <==> st.echo.None?)
    && (st.echo.Some? ==> EchoDrawn(st) && !st.screen.promptShown)
    && (st.pending == Some(TestEcho) ==> !st.screen.promptShown)
    && (st.pending == Some(Repl) ==> st.screen.promptShown && st.screen.focused)
    && TickerKept(st.ticker)
  }
}

=== FILE: terminus_properties.dfy ===
/**
 * What the session loop guarantees: the invariant every reachable state
 * keeps, and the effect of each kind of input line and each command.
 */
module TerminusProperties {
  import opened Common
  import opened JsText
  import opened Foundation
  import opened Terminus

  /** Nothing waits: no read is pending, no echo is animating, no reader
      was ever dropped, and the timer is kept. */
  predicate Idle(st: Session) {
    && st.promptActive
    && !st.dropped
    && st.pending.None?
    && st.echo.None?
    && TickerKept(st.ticker)
  }

  /** A command is executing synchronously: nothing waits and the prompt is
      hidden. */
  predicate Running(st: Session) {
    Idle(st) && !st.screen.promptShown
  }

  lemma InitWf()
    ensures Wf(Init()) && Init().pending == Some(Repl) && Init().screen.lines == []
  {
  }

  /** Finishing a command leaves the REPL waiting for the next line with the
      prompt shown and the log untouched. */
  lemma ContinueWaits(st: Session)
    requires Idle(st)
    ensures Wf(Continue(st))
    ensures Continue(st).pending == Some(Repl)
    ensures Continue(st).screen.lines == st.screen.lines
    ensures Continue(st).screen.scroll == Bottom && Continue(st).screen.promptShown
  {
  }

  /** Every command handler ends in a well-formed state. */
  lemma DispatchWf(st: Session, cmd: string)
    requires Running(st)
    ensures Wf(Dispatch(st, cmd))
  {
    HandleWf(st, cmd, Lookup(Parse(cmd).0));
  }

  lemma HandleWf(st: Session, cmd: string, found: Option<Command>)
    requires Running(st)
    ensures Wf(Handle(st, cmd, found))
  {
    match found
    case Some(Ls) => ContinueWaits(Write(st, Str(LsText), false, LsOpts));
    case Some(Clear) => ContinueWaits(st.(screen := ClearOutput(st.screen)));
    case Some(Scramblybugs) => ContinueWaits(StartTicker(Write(st, Obj(Some(TickerBanner), "info"), true, NoOpts)));
    case Some(Test) =>
    case Some(Hide) => ContinueWaits(st.(screen := HidePrompt(st.screen)));
    case None => ContinueWaits(Write(st, ErrorLine(cmd), true, NoOpts));
  }

  /** Settling the echo leaves a command running. */
  lemma SettleRunning(st: Session, failed: bool)
    requires Wf(st) && st.echo.Some?
    ensures Running(SettleEcho(st, failed))
  {
  }

  /** Starting a non-blank command from the REPL leaves its echo in flight
      in a well-formed state. */
  lemma ExecuteWf(st: Session, cmd: string)
    requires Running(st) && Trim(cmd) != ""
    ensures Wf(ExecuteCommand(st, cmd))
  {
  }

  /** A resolved read leads to a well-formed state. */
  lemma ResumeWf(st: Session, reader: Reader, line: string)
    requires Idle(st)
    requires reader == TestEcho ==> !st.screen.promptShown
    ensures Wf(Resume(st, reader, line))
  {
    match reader
    case Repl =>
      if Trim(line) != "" {
        ExecuteWf(st.(screen := HidePrompt(st.screen)), line);
      }
    case TestEcho =>
      var echoed := Write(st, Str(line), true, NoOpts);
      if line == TestExit {
        ContinueWaits(echoed);
      }
  }

  /** The invariant survives every event. */
  lemma StepWf(st: Session, ev: Event)
    requires Wf(st)
    ensures Wf(Step(st, ev))
  {
    match ev
    case Type(_) =>
    case Enter =>
      if st.pending.Some? {
        var cleared := st.(input := "", promptActive := true, pending := None);
        ResumeWf(cleared, st.pending.value, st.input);
      }
    case EchoDone =>
      if st.echo.Some? {
        SettleRunning(st, false);
        DispatchWf(SettleEcho(st, false), st.echo.value.cmd);
      }
    case EchoFailed =>
      if st.echo.Some? {
        SettleRunning(st, true);
        DispatchWf(SettleEcho(st, true), st.echo.value.cmd);
      }
    case Tick(n) =>
      if st.ticker.started > 0 {
        WriteWf(st, Str(Decimal(n)), false, NoOpts);
      }
  }

  /** Writing a line at any suspension point keeps the invariant: the echo
      line, if any, stays where it was. */
  lemma WriteWf(st: Session, content: Content, animate: bool, opts: Opts)
    requires Wf(st)
    ensures Wf(Write(st, content, animate, opts))
  {
    if st.echo.Some? {
      var w := Write(st, content, animate, opts);
      var at := st.echo.value.at;
      assert w.screen.lines[at] == w.screen.lines[..|st.screen.lines|][at];
    }
  }

  /** The invariant holds after any finite sequence of events. */
  lemma {:induction false} RunWf(st: Session, evs: seq<Event>)
    requires Wf(st)
    ensures Wf(Run(st, evs))
    decreases |evs|
  {
    if evs != [] {
      StepWf(st, evs[0]);
      RunWf(Step(st, evs[0]), evs[1..]);
    }
  }

  /** In every reachable state exactly one continuation is suspended, no
      read was ever requested while another was pending (so no reader's
      continuation is lost), and `isPromptActive` is never false. */
  lemma Reachable(evs: seq<Event>)
    ensures Wf(Run(Init(), evs))
    ensures !Run(Init(), evs).dropped
    ensures Run(Init(), evs).promptActive
    ensures Run(Init(), evs).pending.Some? != Run(Init(), evs).echo.Some?
  {
    InitWf();
    RunWf(Init(), evs);
  }

  /** A REPL step. A blank line (empty or whitespace only) loops back to the
      prompt: no echo, no command, the log unchanged, the prompt still shown.
      Any other line hides the prompt and starts executing it: one echo line
      showing the raw text is appended and its animation is in flight. */
  lemma ReplLine(st: Session)
    requires Wf(st) && st.pending == Some(Repl)
    ensures var r := Step(st, Enter);
      && r.input == ""
      && (Blank(st.input) ==>
            && r.screen.lines == st.screen.lines
            && r.screen.promptShown
            && r.pending == Some(Repl) && r.echo.None?)
      && (!Blank(st.input) ==>
            && !r.screen.promptShown
            && r.pending.None?
            && r.echo.Some? && r.echo.value.cmd == st.input
            && r.echo.value.at == |st.screen.lines|
            && |r.screen.lines| == |st.screen.lines| + 1
            && r.screen.lines[..|st.screen.lines|] == st.screen.lines
            && LastLine(r.screen).kind == Echoed
            && LastLine(r.screen).body.Shown() == st.input)
  {
  }

  /** Enter while the echo animates: the field is cleared and its text is
      lost, since no read is pending; nothing else changes. */
  lemma EnterWhileEchoing(st: Session)
    requires Wf(st) && st.echo.Some?
    ensures Step(st, Enter) == st.(input := "", promptActive := true)
  {
  }

  /** However the echo animation ends, the echo line shows the command's raw
      text; when it resolved, the cursor is gone. Earlier lines are untouched. */
  lemma EchoSettles(st: Session, failed: bool)
    requires Wf(st) && st.echo.Some?
    ensures var r := SettleEcho(st, failed); var at := st.echo.value.at;
      && at < |r.screen.lines|
      && r.screen.lines[..at] == st.screen.lines[..at]
      && r.screen.lines[at].kind == Echoed
      && r.screen.lines[at].body.Shown() == st.echo.value.cmd
      && (failed ==> r.screen.lines[at].body == Plain(st.echo.value.cmd))
      && (!failed ==> r.screen.lines[at].body.Typewriter? && Cursor !in r.screen.lines[at].body.nodes)
  {
    var e := st.echo.value;
    assert e.at < |st.screen.lines| && e.anim == AnimateText(e.cmd, EchoOpts);
    SettledLine(st.screen.lines, e, failed);
  }

  lemma SettledLine(lines: seq<Line>, e: Echo, failed: bool)
    requires e.at < |lines| && e.anim == AnimateText(e.cmd, EchoOpts)
    ensures var body := if failed then Plain(e.cmd) else Typewriter(Settle(e.anim));
      var r := lines[e.at := Line(Echoed, "", body)];
      && r[..e.at] == lines[..e.at]
      && body.Shown() == e.cmd
      && (!failed ==> Cursor !in body.nodes)
  {
    var body := if failed then Plain(e.cmd) else Typewriter(Settle(e.anim));
    assert lines[e.at := Line(Echoed, "", body)][..e.at] == lines[..e.at];
    if !failed {
      AnimateThenSettle(e.cmd, EchoOpts);
      assert body.Shown() == ReadBack(Settle(e.anim)) == e.cmd;
    }
  }

  /** An unknown name: exactly one error-classed line is appended, reading
      the untrimmed command followed by " not recognized", and the REPL
      waits for the next line. */
  lemma UnknownCommand(st: Session, cmd: string)
    requires Running(st) && Lookup(Parse(cmd).0) == None
    ensures var r := Dispatch(st, cmd);
      && |r.screen.lines| == |st.screen.lines| + 1
      && r.screen.lines[..|st.screen.lines|] == st.screen.lines
      && LastLine(r.screen).cls == "error"
      && LastLine(r.screen).body.Shown() == cmd + " not recognized"
      && r.pending == Some(Repl) && r.screen.promptShown
  {
    var w := Write(st, ErrorLine(cmd), true, NoOpts);
    ContinueWaits(w);
  }

  /** `ls` appends its fixed listing as one plain, non-animated line. */
  lemma LsListing(st: Session, cmd: string)
    requires Running(st) && Parse(cmd).0 == "ls"
    ensures var r := Dispatch(st, cmd);
      && r.screen.lines == st.screen.lines + [Line(Written, "", Plain(LsText))]
      && r.pending == Some(Repl) && r.screen.promptShown
  {
    var w := Write(st, Str(LsText), false, LsOpts);
    ContinueWaits(w);
    assert w.screen.lines == st.screen.lines + [LastLine(w.screen)];
  }

  /** `clear` empties the log. */
  lemma ClearEmpties(st: Session, cmd: string)
    requires Running(st) && Parse(cmd).0 == "clear"
    ensures Dispatch(st, cmd).screen.lines == []
    ensures Dispatch(st, cmd).pending == Some(Repl)
  {
    ContinueWaits(st.(screen := ClearOutput(st.screen)));
  }

  /** `hide` has no lasting effect: the REPL shows the prompt again as soon
      as the command completes, and the log is unchanged. */
  lemma HideIsTransient(st: Session, cmd: string)
    requires Running(st) && Parse(cmd).0 == "hide"
    ensures Dispatch(st, cmd).screen.promptShown
    ensures Dispatch(st, cmd).screen.lines == st.screen.lines
  {
    assert Lookup(Parse(cmd).0) == Some(Hide);
    HandleHide(st, cmd);
  }

  lemma HandleHide(st: Session, cmd: string)
    requires Running(st)
    ensures Handle(st, cmd, Some(Hide)).screen.lines == st.screen.lines
  {
    var hidden := st.(screen := HidePrompt(st.screen));
    assert Handle(st, cmd, Some(Hide)) == Continue(hidden);
    ContinueWaits(hidden);
  }

  /** `scramblybugs` writes one info line and starts a timer whose handle
      replaces the kept one: after it, only the newest of all timers started
      so far can be reached. */
  lemma ScramblybugsOverwrites(st: Session, cmd: string)
    requires Running(st) && Parse(cmd).0 == "scramblybugs"
    ensures var r := Dispatch(st, cmd);
      && |r.screen.lines| == |st.screen.lines| + 1
      && LastLine(r.screen).cls == "info"
      && LastLine(r.screen).body.Shown() == TickerBanner
      && r.ticker.started == st.ticker.started + 1
      && r.ticker.handle == Some(st.ticker.started)
  {
    var w := Write(st, Obj(Some(TickerBanner), "info"), true, NoOpts);
    assert Dispatch(st, cmd) == Continue(StartTicker(w));
    ContinueWaits(StartTicker(w));
  }

  /** `test` writes its banner and then waits for a line in its own loop,
      with the prompt still hidden. */
  lemma TestStarts(st: Session, cmd: string)
    requires Running(st) && Parse(cmd).0 == "test"
    ensures var r := Dispatch(st, cmd);
      && |r.screen.lines| == |st.screen.lines| + 1
      && r.screen.lines[..|st.screen.lines|] == st.screen.lines
      && LastLine(r.screen).body.Shown() == TestBanner
      && r.pending == Some(TestEcho) && !r.screen.promptShown
  {
    assert Lookup(Parse(cmd).0) == Some(Test);
    HandleTest(st, cmd);
  }

  lemma HandleTest(st: Session, cmd: string)
    requires Running(st)
    ensures var r := Handle(st, cmd, Some(Test));
      && |r.screen.lines| == |st.screen.lines| + 1
      && r.screen.lines[..|st.screen.lines|] == st.screen.lines
      && LastLine(r.screen).body.Shown() == TestBanner
  {
    var w := Write(st, Str(TestBanner), true, NoOpts);
    assert Handle(st, cmd, Some(Test)) == ReadLine(w, TestEcho);
  }

  /** One line read by `test`: it is echoed as one new line; after `exit`
      (echoed too) the loop ends and the REPL prompts again, otherwise the
      loop reads on. */
  lemma TestEchoes(st: Session)
    requires Wf(st) && st.pending == Some(TestEcho)
    ensures var r := Step(st, Enter);
      && |r.screen.lines| == |st.screen.lines| + 1
      && r.screen.lines[..|st.screen.lines|] == st.screen.lines
      && LastLine(r.screen).body.Shown() == st.input
      && (st.input == TestExit ==> r.pending == Some(Repl) && r.screen.promptShown)
      && (st.input != TestExit ==> r.pending == Some(TestEcho) && !r.screen.promptShown)
  {
    var cleared := st.(input := "", promptActive := true, pending := None);
    var echoed := Write(cleared, Str(st.input), true, NoOpts);
    if st.input == TestExit {
      ContinueWaits(echoed);
    }
  }

  /** A timer tick: before any scramblybugs timer was started nothing
      happens; afterwards one plain line is appended whose digits read back
      as the drawn number, and nothing else the session waits on changes. */
  lemma TimerLine(st: Session, n: nat)
    requires Wf(st)
    ensures st.ticker.started == 0 ==> Step(st, Tick(n)) == st
    ensures st.ticker.started > 0 ==>
      var r := Step(st, Tick(n));
      && r.screen.lines == st.screen.lines + [Line(Written, "", Plain(Decimal(n)))]
      && DecimalValue(LastLine(r.screen).body.text) == n
      && r.pending == st.pending && r.echo == st.echo
      && r.screen.promptShown == st.screen.promptShown
  {
    DecimalRoundTrip(n);
    if st.ticker.started > 0 {
      var r := Step(st, Tick(n));
      assert r.screen.lines == st.screen.lines + [LastLine(r.screen)];
    }
  }

  /** A whole exchange at the prompt: typing `ls` and pressing Enter
      echoes the command; once the echo animation ends the listing follows
      the echo and the prompt is back, waiting for the next line. */
  lemma LsSession(st: Session, cmd: string)
    requires Wf(st) && st.pending == Some(Repl) && cmd == "ls"
    ensures var r := Run(st, [Type(cmd), Enter, EchoDone]);
      var n := |st.screen.lines|;
      && |r.screen.lines| == n + 2
      && r.screen.lines[..n] == st.screen.lines
      && r.screen.lines[n].kind == Echoed
      && r.screen.lines[n].body.Shown() == "ls"
      && r.screen.lines[n + 1] == Line(Written, "", Plain(LsText))
      && r.pending == Some(Repl) && r.screen.promptShown
  {
    var s2 := Step(Step(st, Type(cmd)), Enter);
    assert !Blank(cmd) by {
      assert !IsSpace(cmd[0]);
    }
    CommandEchoed(st, cmd);
    var settled := SettleEcho(s2, false);
    CommandSettled(st, s2);
    LsListed(st, settled, cmd);
    EchoDoneDispatches(s2);
    RunThree(st, Type(cmd), Enter, EchoDone);
  }

  /** Typing a non-blank line at the prompt and pressing Enter echoes it,
      and its echo animates. */
  lemma CommandEchoed(st: Session, cmd: string)
    requires Wf(st) && st.pending == Some(Repl) && !Blank(cmd)
    ensures var s2 := Step(Step(st, Type(cmd)), Enter);
      && Wf(s2) && s2.echo.Some? && s2.echo.value.cmd == cmd && s2.echo.value.at == |st.screen.lines|
      && |s2.screen.lines| == |st.screen.lines| + 1
      && s2.screen.lines[..|st.screen.lines|] == st.screen.lines
  {
    var s1 := Step(st, Type(cmd));
    StepWf(st, Type(cmd));
    ReplLine(s1);
    StepWf(s1, Enter);
  }

  /** Then the echo settles, showing the command. */
  lemma CommandSettled(st: Session, s2: Session)
    requires Wf(s2) && s2.echo.Some? && s2.echo.value.at == |st.screen.lines|
    requires |s2.screen.lines| == |st.screen.lines| + 1
    requires s2.screen.lines[..|st.screen.lines|] == st.screen.lines
    ensures var settled := SettleEcho(s2, false);
      var n := |st.screen.lines|;
      && Running(settled) && |settled.screen.lines| == n + 1
      && settled.screen.lines[..n] == st.screen.lines
      && settled.screen.lines[n].kind == Echoed
      && settled.screen.lines[n].body.Shown() == s2.echo.value.cmd
  {
    EchoSettles(s2, false);
    SettleRunning(s2, false);
  }

  /** Then `ls` runs and the REPL prompts again. */
  lemma LsListed(st: Session, settled: Session, cmd: string)
    requires Running(settled) && |settled.screen.lines| == |st.screen.lines| + 1
    requires settled.screen.lines[..|st.screen.lines|] == st.screen.lines
    requires cmd == "ls"
    ensures var r := Dispatch(settled, cmd);
      var n := |st.screen.lines|;
      && |r.screen.lines| == n + 2
      && r.screen.lines[..n + 1] == settled.screen.lines
      && r.screen.lines[..n] == st.screen.lines
      && r.screen.lines[n + 1] == Line(Written, "", Plain(LsText))
      && r.pending == Some(Repl) && r.screen.promptShown
  {
    var n := |st.screen.lines|;
    ParseLs(cmd);
    LsListing(settled, cmd);
    var r := Dispatch(settled, cmd);
    assert r.screen.lines[..n + 1] == settled.screen.lines;
    assert r.screen.lines[..n] == settled.screen.lines[..n];
  }

  lemma EchoDoneDispatches(st: Session)
    requires st.echo.Some?
    ensures Step(st, EchoDone) == Dispatch(SettleEcho(st, false), st.echo.value.cmd)
  {
  }

  lemma ParseLs(cmd: string)
    requires cmd == "ls"
    ensures Parse(cmd).0 == "ls"
  {
    assert SpaceFree(cmd);
    ParseWord(cmd);
  }

  lemma RunThree(st: Session, a: Event, b: Event, c: Event)
    ensures Run(st, [a, b, c]) == Step(Step(Step(st, a), b), c)
  {
    var s1 := Step(st, a);
    var s2 := Step(s1, b);
    assert [a, b, c][1..] == [b, c];
    assert [b, c][1..] == [c];
    assert [c][1..] == [];
    calc {
      Run(st, [a, b, c]);
      Run(s1, [b, c]);
      Run(s2, [c]);
      Run(Step(s2, c), []);
    }
  }
}
